=== FILE: README.md ===
# ProPublica nonprofit scraper, modelled in Dafny

`propublica.py` harvests the financial records of nonprofit organizations
from ProPublica's Nonprofit Explorer. It has these parts:

- **Record extractor** (`extract_data` and its helpers). It turns one parsed
  organization page into records. Each record holds:
  - the header fields: Name, Metadata, EIN, Classification, Nonprofit Tax
    Code Designation and Guidestar URL;
  - one year triplet: Year, Total Revenue and Total Assets.
- **Per-target retry loop** (`scrape_company`). It refetches while the server
  answers with a placeholder page (records whose first EIN is null). Then it
  stamps every record with the target URL.
- **Crawl** (`scrape_companies`). It builds the target URLs and slices them
  with `iloc`. It seeds the results from the checkpoint file `results.csv`
  and skips every URL already in that file. It stops the whole run at the
  first exception or interrupt.
- **Generator variant** (`scrape_process`). It visits consecutive `iloc`
  positions as a do-while loop.
- **Flush** (`main`). It builds a table from the records, drops duplicate
  rows, keeps the ten output columns in their fixed order, and writes the
  file that the next run resumes from.
- **Search pagination walker** (`fetch_companies`). It retries placeholder
  result pages under the same page number. It yields the links of each real
  page and stops at the page without a "next" control.

The model is pure Dafny functions over values:

- A parsed page is a plain datatype (module `Html`). It holds exactly the
  query results the scraper reads.
- A record is a `map<Field, Option<string>>`.
- The checkpoint file is a table of ten-cell rows.
- The server is a finite trace of answers, consumed one per fetch. When the
  trace runs out while the server keeps answering with placeholders, that is
  the interrupt that ends the otherwise endless retry loops.

Modules:

| module | contents |
|---|---|
| `Wrappers` | `Option`, `Result` |
| `Seqs` | concatenation, prefixes, `drop_duplicates` |
| `Text` | `str.strip`, `rpartition`, the bar-separated join and its inverse |
| `Records` | fields, rows, the column order |
| `Html` | page values |
| `Extract` | extraction |
| `Scrape` | retry loop |
| `Runner` | crawl and generator |
| `Output` | `main` and the flush |
| `Search` | pagination |

Behaviour of the code worth knowing before reading the model:

- **EIN and Classification labels.** They are found with a regular-expression
  *search*, so they match anywhere in the `<strong>` text, not only as a
  prefix (`li_with_bold_name`, line 19). Only the designation label is
  anchored with `^` (line 73).
- **Missing header fields.** A page with a heading but no designation label,
  or no guidestar anchor, raises inside `extract_data`. `scrape_companies`
  catches the exception and abandons the rest of the run.
- **Empty result list.** `main` does not always write a file. With an empty
  result list, `cdf[cols]` raises KeyError and nothing is written.
- **Header fields are not always populated.** A page with no parsable card
  still gets one record with a null triplet, but its EIN and Classification
  may themselves be null.

## Model

| member | source | states |
|---|---|---|
| Text.Strip | propublica.py:25 | `str.strip` (Python's whitespace set): the result is a contiguous piece of the input with no whitespace at either end, and everything cut off on either side is whitespace |
| Text.StripIdempotent | propublica.py:25 | stripping twice is stripping once |
| Text.StripEmptyIff | propublica.py:25 | strip yields the empty string exactly when the input is all whitespace |
| Text.StripPadded | propublica.py:25 | whitespace around an already-stripped string is removed and nothing else |
| Text.StripSubset | propublica.py:25 | every character of the stripped string occurs in the input |
| Text.StripKeepsAbsent | propublica.py:25 | a character absent from the input is absent from the stripped string |
| Text.AfterLast | propublica.py:24 | `rpartition(c)[-1]`: a suffix containing no `c`, preceded by `c` whenever it is shorter than the input |
| Text.AfterLastNoSep | propublica.py:24 | without the separator the whole string is returned |
| Text.AfterLastSplit | propublica.py:24 | for `a + c + b` with no `c` in `b`, the result is `b` |
| Text.SplitJoin | propublica.py:62-64 | joining stripped parts that contain no bar character with the space-bar-space separator, then splitting at the bar and stripping, gives back exactly those parts |
| Text.Join | propublica.py:63 | `sep.join(parts)`: the parts with the separator between consecutive ones |
| Text.JoinSnoc | propublica.py:63 | joining one more part appends the separator and that part |
| Text.StrippedText | propublica.py:60 | `get_text(strip=True)` has no whitespace at either end |
| Text.StrippedTextSingle | propublica.py:60 | the text of a single node is that node stripped |
| Text.StrippedTextAppend | propublica.py:60 | the text of two runs of nodes is the text of the first followed by the text of the second, with no separator |
| Text.StrippedTextBlank | propublica.py:60 | whitespace-only text nodes contribute nothing |
| Text.StrippedTextSubset | propublica.py:63 | `get_text(strip=True)` introduces no character absent from the text nodes |
| Records.ColumnIndex | propublica.py:232-236 | every field has a position in the output column list |
| Records.ColumnsArePermutation | propublica.py:232-236 | the ten output columns are pairwise distinct and are exactly the fields a stamped record carries |
| Records.Project | propublica.py:239 | cell `i` of a record's row is its value for column `i`, null when the key is absent |
| Records.RowRecord | propublica.py:162-163 | a row read back from the checkpoint file is a record with every column |
| Records.ProjectRowRecord | propublica.py:162-163 | reading a written row back and selecting the columns again gives the same row |
| Records.RowRecordProject | propublica.py:239 | a record with every column survives being written and read back |
| Records.TableRecords | propublica.py:162-163 | `to_dict(orient='records')`: one record per line, in file order |
| Seqs.Dedup | propublica.py:238 | `drop_duplicates`: no repeated row, and never more rows than the input |
| Seqs.DedupKeeps | propublica.py:238 | every input row is still present after dropping duplicates |
| Seqs.DedupFrom | propublica.py:238 | every row kept is an input row |
| Seqs.DedupDistinct | propublica.py:238 | a table without repeated rows is left unchanged |
| Seqs.DedupIdempotent | propublica.py:238 | dropping duplicates twice is dropping them once |
| Seqs.DedupPrefix | propublica.py:238 | first occurrences are kept in order: deduplicating a prefix gives a prefix of the deduplicated whole |
| Extract.LastSegment | propublica.py:22-24 | the last direct text node after its last `:` contains no `:` |
| Extract.MentionsLabel | propublica.py:14-15 | `tr_with_first_col`: some string inside the row contains the caption |
| Text.Contains | propublica.py:15 | `re.compile(label).search(s)` for a literal label: the label occurs somewhere in the string |
| Text.StartsWith | propublica.py:73-74 | `re.compile('^' + label).search(s)` for a literal label: the string begins with the label |
| Extract.ExtractTextBelow | propublica.py:21-25 | None exactly when the part of the last direct text node after its last `:` is empty (so always when there is no text node); otherwise that part stripped, which contains no `:` and is empty exactly when the part is all whitespace |
| Extract.ExtractTextBelowValue | propublica.py:21-25 | for a last text node `caption:value` the result is `value` stripped, or None when nothing follows the colon, whatever the earlier text nodes are |
| Extract.ExtractTextBelowPlain | propublica.py:21-25 | a last text node without a colon is read whole and stripped, or None when it is empty |
| Extract.HasBoldName | propublica.py:17-19 | `li_with_bold_name`: some `<strong>` of the item has a string containing the name |
| Extract.FindBoldName | propublica.py:27-30 | a found value is stripped and contains no `:` |
| Extract.FindBoldNameFirst | propublica.py:27-30 | the value comes from the first list item whose bold label contains the name, whatever later items hold |
| Extract.FindBoldNameMissing | propublica.py:27-30 | with no labelled item the field is null, not an error |
| Extract.DesignationValue | propublica.py:72-76 | fails with the designation error exactly when no `<strong>` starts with the designation phrase; the value contains no space |
| Extract.IsDesignationLabel | propublica.py:73-74 | a `<strong>` string matching `^Nonprofit Tax Code Designation` |
| Extract.DesignationFirst | propublica.py:72-76 | the designation comes from the first `<strong>` starting with the phrase: the token after the last space of its stripped text |
| Extract.LabelValue | propublica.py:75-76 | the token after the last space of a stripped `caption: value` label is the value |
| Extract.DesignationOfLabel | propublica.py:72-76 | the label `Nonprofit Tax Code Designation: v` gives the designation `v` |
| Extract.GuidestarHref | propublica.py:78-79 | fails with the missing-anchor error exactly when there is no guidestar anchor; any other failure is an anchor without `href` |
| Extract.IsGuidestar | propublica.py:78 | an anchor with the class `guidestar` |
| Extract.GuidestarFirst | propublica.py:78-79 | only the first guidestar anchor is read: the result is its `href`, or the missing-`href` error when it has none |
| Extract.FindRow | propublica.py:14-15 | a found row belongs to the card and mentions the caption; None exactly when no row mentions it |
| Extract.FindRowFirst | propublica.py:14-15 | the row found is the first row that mentions the caption, whatever later rows hold |
| Extract.FindRowFirstAll | propublica.py:14-15 | for every row that is the first to mention the caption, that row is the one found |
| Extract.YearElement | propublica.py:36-38 | the year element exists exactly when the card has a `.left-label` holding an `<h4>` |
| Extract.RevenueElement | propublica.py:41-42 | the `th + th` cell of the first row mentioning Total Revenue, even when that cell is missing and a later row has one; no mentioning row gives no element |
| Extract.AssetsElement | propublica.py:46-47 | the `td + td` cell of the first row mentioning Total Assets, even when that cell is missing and a later row has one; no mentioning row gives no element |
| Extract.YearRecord | propublica.py:34-49 | the triplet record has exactly the three year keys with the given values |
| Extract.ParseYearCard | propublica.py:32-51 | a triplet exactly when the card has a year heading, a revenue cell and an assets cell; it has exactly the three year keys, holding the stripped text of the heading, of the revenue cell and of the assets cell respectively |
| Extract.ParseYearCardStripped | propublica.py:39-49 | the three values have no whitespace at either end |
| Extract.ParsedCards | propublica.py:81-83 | at most one triplet per card, each with exactly the year keys |
| Extract.ParsedCardsHaveValues | propublica.py:81-83 | every kept triplet has all three values non-null |
| Extract.ParsedCardsAppend | propublica.py:81-83 | card parsing keeps document order: parsing two runs of cards concatenates their triplets |
| Extract.MalformedCardDropped | propublica.py:81-83 | a malformed card is dropped without affecting the other cards |
| Extract.ParsedCardsAllWellFormed | propublica.py:81-83 | with every card well formed, triplet `i` is card `i`'s |
| Extract.NoWellFormedNoParsed | propublica.py:81-83 | with no well-formed card nothing parses |
| Extract.MetadataText | propublica.py:62-64 | `Metadata` is empty without small labels, the one label's stripped text with one, and starts with the first label's text and the separator with more |
| Extract.MetadataTextSnoc | propublica.py:62-64 | one more small label appends the separator and that label's stripped text, so `Metadata` is the space-bar-space join of the labels' texts in document order |
| Extract.MetadataLabels | propublica.py:62-64 | the small labels can be recovered from `Metadata` when none contains a bar character |
| Extract.IdentityRecord | propublica.py:60-79 | the header record has exactly the six header keys with the given values |
| Extract.Identity | propublica.py:57-79 | header fields are read exactly when both the designation label and the guidestar URL are found; a missing designation is reported first |
| Extract.IdentityValues | propublica.py:60-79 | each header field comes from its own query: heading text, joined labels, the two labelled items, the designation label, the anchor |
| Extract.Merge | propublica.py:89 | `{**data, **x}`: the card's keys override, other header keys are kept |
| Extract.PageRecords | propublica.py:85-90 | one record per triplet merged over the header, or a single record with a null triplet when there is none |
| Extract.PageRecordsShape | propublica.py:85-90 | every page record has exactly the header and year keys and carries the header values |
| Extract.PageRecordsYears | propublica.py:85-90 | record `i` carries triplet `i`; without triplets, the year fields are null |
| Extract.ExtractData | propublica.py:53-90 | no heading gives no records and no error; with a heading the page succeeds exactly when its header fields are read |
| Extract.RecordShape | propublica.py:53-90 | a page with a heading yields at least one record, each with exactly the extractor's fields |
| Extract.NoHeadingNoRecords | propublica.py:57-58 | without a heading nothing else on the page affects the outcome |
| Extract.SharedIdentity | propublica.py:85-90 | every record of a page carries the same header fields, the page's own |
| Extract.CardRecords | propublica.py:81-90 | with N parsed cards there are N records, in card order, each with its card's triplet |
| Extract.NoCardsOneRecord | propublica.py:85-90 | with no card that parses there is exactly one record, with a null triplet |
| Extract.MissingDesignationFails | propublica.py:72-75 | a page with a heading but no designation label raises, whatever its cards are |
| Extract.MissingGuidestarFails | propublica.py:78-79 | a page with a heading but no guidestar anchor raises; past the designation, the error names the missing anchor |
| Scrape.FetchCompany | propublica.py:92-95 | a page without heading yields no records; every record of a successful fetch has exactly the extractor's fields |
| Scrape.Fetches | propublica.py:92-95 | answer `i` of a trace is `fetch_company` on the `i`-th page the server sent |
| Scrape.FetchesShaped | propublica.py:92-95 | every answer in a trace of fetches is well shaped |
| Scrape.Stamp | propublica.py:198-199 | `data['URL'] = url`: URL added to every record and nothing else changes |
| Scrape.Classify | propublica.py:192-201 | an answer is a placeholder exactly when it has records and the first has a null EIN; an extraction error is passed on; anything else is accepted as is |
| Scrape.RetryLoop | propublica.py:190-201 | leaves with the first answer that is not a placeholder, all earlier ones being placeholders; interrupted exactly when every answer was one |
| Scrape.ScrapeCompany | propublica.py:188-201 | when it returns, it used between one and all answers; every returned record carries the target URL |
| Scrape.ScrapedRecords | propublica.py:188-201 | the result is the stamped records of the first non-placeholder answer, whose first record (if any) has an EIN |
| Scrape.FailedRaises | propublica.py:190-192 | an extraction exception ends the loop with that exception after placeholders only |
| Scrape.InterruptedIff | propublica.py:190-196 | the loop never ends exactly when every answer is a placeholder |
| Scrape.DoneRecordsShape | propublica.py:198-201 | returned records have every output column |
| Scrape.NoHeadingEndsRetry | propublica.py:192-194 | a page without heading ends the loop at once with no records |
| Scrape.BlockedRetriesSameUrl | propublica.py:194-196 | a placeholder answer costs one fetch and changes nothing else |
| Runner.SliceBound | propublica.py:158 | Python slice bound normalisation: negative bounds count from the end, both sides clamp |
| Runner.SliceLength | propublica.py:158 | the length of a Python slice: from a non-negative start to the end, between in-range bounds, empty for crossed bounds, and the last `-start` elements (or all of them) for a negative start to the end |
| Runner.PySlice | propublica.py:158 | `iloc[offset:size]` keeps the number of elements between the two normalised bounds (none when they cross), element `k` being the one at the normalised offset plus `k` |
| Runner.PySliceInRange | propublica.py:158 | in-range bounds give the plain subsequence, inverted ones the empty one |
| Runner.PySliceTail | propublica.py:158 | a negative offset keeps that many targets from the end |
| Runner.Prefixed | propublica.py:157 | every company link gets the site prefix, in order |
| Runner.Targets | propublica.py:156-158 | as many targets as the slice keeps; target `k` is the prefixed company at the normalised offset plus `k` |
| Runner.TargetsDefault | propublica.py:156-158 | with the defaults every company is a target, in file order |
| Runner.CompletionIndex | propublica.py:164 | `set(rf.URL)`: exactly the URL cells present in the checkpoint file |
| Runner.Scraped | propublica.py:161-167 | no checkpoint file gives the empty set; otherwise exactly the URL cells present in the file |
| Runner.Unscraped | propublica.py:172-176 | the kept targets are targets not in the checkpoint, and every such target is kept |
| Runner.UnscrapedSingle | propublica.py:174-177 | a single target is kept exactly when it is not in the checkpoint |
| Runner.UnscrapedAppend | propublica.py:172-177 | filtering keeps input order and multiplicity: the kept targets of two runs are those of the first followed by those of the second |
| Runner.ScrapeLoop | propublica.py:169-184 | visits, in order, a prefix of the targets not in the checkpoint; a completed loop visited all of them with one batch each; every collected record carries the URL of the target it was fetched for; after a crash or interrupt the last visited target has no batch |
| Runner.LoopBatchesComplete | propublica.py:172-178 | every collected record has every output column |
| Runner.NothingLeftCompletes | propublica.py:172-176 | when every target is in the checkpoint nothing is fetched and the loop completes |
| Runner.LoopFollowsAnswers | propublica.py:169-201 | batch `i` of the crawl loop is what `scrape_company` returned for the `i`-th URL fetched, on the answers left after the earlier targets; a completed loop used exactly those answers; a crash or interrupt is the exception or endless wait of the call on the URL after the last batch |
| Runner.Seed | propublica.py:159-167 | no checkpoint file gives no seed records; otherwise one complete record per line |
| Runner.FlattenComplete | propublica.py:178 | `results.extend` of complete records keeps them complete |
| Runner.FlattenStamped | propublica.py:178 | every appended record carries the URL of a fetched target |
| Runner.ScrapeCompanies | propublica.py:154-186 | results start with the checkpoint's records unchanged; no target in the checkpoint is fetched; a completed crawl fetched exactly the unscraped targets; every new record carries a fetched target's URL; every record has every column |
| Runner.ResultsInInputOrder | propublica.py:159-201 | results are the checkpoint's records followed by the new batches in order; the fetched URLs are the unscraped targets in input order up to the stop, and all of them when the run completed; batch `i` is what `scrape_company` returned for the `i`-th fetched URL on its share of the answers; only a completed run has a batch for every fetched URL, and any other run stopped on the call after the last batch |
| Runner.ILoc | propublica.py:206 | `iloc[i]`: defined exactly for `-n <= i < n`, negative positions counting from the end |
| Runner.ProcessFrom | propublica.py:208-227 | at most one URL per position up to the end (at least one); a completed run yields one batch per position, and reaching that many batches means the run completed; every batch carries its URL |
| Runner.ProcessVisitsInOrder | propublica.py:205-226 | the generator fetches consecutive `iloc` positions from the offset |
| Runner.ProcessFollowsAnswers | propublica.py:203-227 | batch `i` of the generator is the stamped records returned for the URL at position offset plus `i`, on its share of the answers; a crash or interrupt is the call on the URL after the last batch |
| Runner.ProcessOutOfRange | propublica.py:206-226 | the generator runs out of URLs only at a position `iloc` cannot read, after using exactly the answers of the batches it yielded |
| Runner.ScrapeProcess | propublica.py:203-227 | the generator reads consecutive `iloc` positions from the offset; each batch is what the call on its URL returned on its share of the answers; it reads at most `size` URLs (one when `size` is not positive), completes exactly on reaching that many batches, and otherwise stops on a crash, an interrupt, or a position `iloc` cannot read; a completed run or one stopped at an unreadable position yielded a batch for every URL it read, and a crash or interrupt came on the URL after the last yielded batch |
| Runner.ProcessFromMatchesLoop | propublica.py:203-227 | inside the list's bounds the generator visits and yields exactly what the crawl loop does over that slice with no checkpoint |
| Runner.NonPositiveSizeScrapesOne | propublica.py:219-224 | the loop is a do-while: a non-positive size still scrapes the URL at the offset |
| Output.Keys | propublica.py:237 | the frame's columns: every key of every record, and no other |
| Output.ProjectAll | propublica.py:239 | one row per record, in order, its cells in column order |
| Output.Flush | propublica.py:237-239 | fails with KeyError exactly when some output column is missing from every record, naming those columns; a written table has no repeated row |
| Output.FlushKeepsRecords | propublica.py:237-239 | every record has its row in the written table |
| Output.FlushInventsNothing | propublica.py:237-239 | every written row is the row of some record |
| Output.FlushEmpty | propublica.py:237-239 | an empty result list raises KeyError over all ten columns |
| Output.FlushComplete | propublica.py:237-239 | a non-empty list of complete records always flushes |
| Output.ProjectTableRecords | propublica.py:162-163 | the records read back from a table select back to that table |
| Output.FlushRoundTrip | propublica.py:237-242 | a written table without repeated rows, read back and flushed, is written unchanged |
| Output.FlushStable | propublica.py:237-242 | reading back the written file and flushing again writes the same file |
| Output.Main | propublica.py:229-242 | a file is written exactly when the crawl has results, and it has no repeated row |
| Output.ResumeKeepsRows | propublica.py:161-176 | resuming from a non-empty checkpoint file keeps all its rows, and fetches none of its URLs |
| Output.FlushedRowsAccounted | propublica.py:237-239 | every flushed row is a checkpoint row or carries the URL of a fetched target |
| Output.FlushedRowFrom | propublica.py:237-239 | a flushed row of the checkpoint records followed by the batches is a checkpoint row or the row of a batch record |
| Output.WrittenRowsAccounted | propublica.py:229-242 | every written row is a checkpoint row or the row of a record in one of the batches `scrape_company` returned in this run; in the second case its URL cell names a fetched target |
| Output.RerunIsFixedPoint | propublica.py:229-242 | once every company is in the checkpoint file, a rerun fetches nothing and rewrites the same file |
| Search.Hrefs | propublica.py:132 | the `href` of each result link, in order |
| Search.WalkFrom | propublica.py:115-140 | at most one request per answer; it ends only after at least one request; while pending it has consumed every answer; every request carries the same filters |
| Search.WalkPages | propublica.py:118-139 | the first request asks for the starting page; the page number rises by one after a real page and stays put after a placeholder |
| Search.WalkContinues | propublica.py:127-139 | every page before the last one asked let the walk go on; a pending walk saw only such pages |
| Search.WalkStops | propublica.py:131-137 | the walk ends after the last page exactly on a complete page without "next", and with KeyError exactly on a link without `href`, that page being the last asked |
| Search.FetchCompanies | propublica.py:115-121 | the first request asks for page 1 |
| Search.WalkYields | propublica.py:127-132 | the yielded links are exactly the links of the real pages served, in page and row order, the page that raised excluded |
| Search.PlaceholderRetried | propublica.py:127-129 | a placeholder page is asked for again under the same page number and yields nothing |

## Left out

- HTTP (`requests`) and HTML parsing (BeautifulSoup) are not modelled. A
  page is the value of the queries the scraper runs on it (module `Html`).
  The server is a trace of such pages.
- Network exceptions from `rq.get` are not modelled. They would stop the
  crawl like any other exception.
- Regular-expression label matching is modelled by its literal effect:
  - a substring test for `li_with_bold_name` and `tr_with_first_col`;
  - a prefix test for the anchored designation pattern.

  The labels contain no regex metacharacters.
- CSV I/O is modelled as a table of string cells; `None` stands for NaN.
  pandas type inference on reading the file back is left out, for example an
  EIN read back as a number. A NaN in the URL column matches no target.
- `time.sleep`, `print`, `tqdm` progress output and `util.display_raw` are
  left out. They have no effect on results.
- `fetch_states_list`, `fetch_org_types`, `fetch_states_companies` and
  `fetch_org_companies` (lines 97-113 and 142-152) are left out. They only
  read option lists and tag the walker's output with the filter used.
- `util.py` is not part of this model. `none_on_error` is modelled as the
  `Option` result of `ParseYearCard`.
- Endless waits are modelled as finite answer traces:
  - the retry loops never give up;
  - a KeyboardInterrupt is modelled as the trace running out while the
    server keeps sending placeholders.

  An interrupt at any other moment is not modelled.
- The `scraped` set is not updated during a run. The model follows the
  source, so a URL that appears twice among the targets is fetched twice.
- Runner.ProcessFromMatchesLoop: covers only positions inside the list.
  Beyond them, `iloc` with negative positions makes the generator wrap.
  `ProcessFrom` and `ProcessVisitsInOrder` cover that case.
- Extract.FindBoldName: its own contract states only the shape of the value.
  The "first labelled item" choice and the null-when-missing case are stated
  by `FindBoldNameFirst` and `FindBoldNameMissing`.
- Text.StrippedText: its own contract states only that the text has no
  whitespace at either end. What text it yields is stated by
  `StrippedTextSingle` and `StrippedTextAppend`.
- Runner.ScrapeLoop: its own contract states which targets are visited, the
  batch counts and the URL stamps. What each batch holds and why the loop
  stopped are stated by `LoopFollowsAnswers`.
- Runner.ProcessFrom: its own contract states the batch counts and the URL
  stamps. What each batch holds, the positions visited and why the
  generator stopped are stated by `ProcessFollowsAnswers`,
  `ProcessVisitsInOrder` and `ProcessOutOfRange`.
- Runner.Seed: a checkpoint file that exists but is empty or malformed makes
  `read_csv` raise an error that nothing catches, which ends
  `scrape_companies`. The model's checkpoint is always a well-formed table.
- Output.FlushRoundTrip: holds for the table of exact cells only. `to_csv`
  writes an empty string and a null cell the same way, `read_csv` reads both
  (and strings such as "NA") back as NaN, and a Year column holding a NaN is
  read back as floats ("2019.0").
- Output.FlushStable: holds for the table of exact cells only, for the same
  reasons as `FlushRoundTrip`.
- Output.RerunIsFixedPoint: holds for the table of exact cells only, for the
  same reasons as `FlushRoundTrip`.
- Search.WalkFrom: its own contract states only counts and filters. Page
  numbering, stop conditions and yielded links are stated by `WalkPages`,
  `WalkStops`, `WalkContinues` and `WalkYields`.

=== FILE: extract.dfy ===
/** The record extractor: one parsed detail page to zero or more records
    (`extract_data` and the helpers it calls). */
module Extract {
  import opened Wrappers
  import opened Text
  import opened Html
  import opened Records

  /** What `extract_data` raises instead of returning records. */
  datatype ExtractError =
    | NoDesignationLabel    // no `<strong>` starts with the designation phrase
    | NoGuidestarAnchor     // no `<a class="guidestar">`
    | GuidestarWithoutHref  // the anchor has no `href`

  /** The text node that `extract_text_below` cuts: the last direct text
      node of the element, after its last `:` (the empty string when the
      element has no direct text). */
  function LastSegment(ownTexts: seq<string>): (r: string)
    ensures ':' !in r
  {
    AfterLast(if |ownTexts| > 0 then ownTexts[|ownTexts| - 1] else "", ':')
  }

  /** `extract_text_below`: the value written after a `Label:` inside an element. */
  function ExtractTextBelow(ownTexts: seq<string>): (r: Option<string>)
    ensures r.None? <==> LastSegment(ownTexts) == ""
    ensures |ownTexts| == 0 ==> r.None?
    ensures r.Some? ==> r.value == Strip(LastSegment(ownTexts))
    ensures r.Some? ==> ':' !in r.value && IsStripped(r.value)
    ensures r.Some? ==> (r.value == "" <==> AllSpace(LastSegment(ownTexts)))
  {
    var text := LastSegment(ownTexts);
    if text == "" then None
    else
      StripEmptyIff(text);
      StripKeepsAbsent(text, ':');
      Some(Strip(text))
  }

  /** A value written after the label in the last text node is read back,
      trimmed; nothing written after the colon reads as no value. Earlier
      text nodes play no part. */
  lemma ExtractTextBelowValue(before: seq<string>, caption: string, value: string)
    requires ':' !in value
    ensures ExtractTextBelow(before + [caption + ":" + value]) == if value == "" then None else Some(Strip(value))
  {
    var texts := before + [caption + ":" + value];
    assert texts[|texts| - 1] == caption + [':'] + value;
    AfterLastSplit(caption, ':', value);
  }

  /** A last text node without a colon is read whole, trimmed. */
  lemma ExtractTextBelowPlain(before: seq<string>, v: string)
    requires ':' !in v
    ensures ExtractTextBelow(before + [v]) == if v == "" then None else Some(Strip(v))
  {
    var texts := before + [v];
    assert texts[|texts| - 1] == v;
    AfterLastNoSep(v, ':');
  }

  /** `li_with_bold_name`: some `<strong>` of the item has a string in which `name` occurs. */
  predicate HasBoldName(li: ListItem, name: string)
  {
    exists k :: 0 <= k < |li.strongs| && li.strongs[k].Some? && Contains(li.strongs[k].value, name)
  }

  /** `find_bold_name`: the value of the first list item labelled `name`, or
      None when there is no such item. */
  function FindBoldName(items: seq<ListItem>, name: string): (r: Option<string>)
    ensures r.Some? ==> ':' !in r.value && IsStripped(r.value)
  {
    if |items| == 0 then None
    else if HasBoldName(items[0], name) then ExtractTextBelow(items[0].ownTexts)
    else FindBoldName(items[1..], name)
  }

  /** The value comes from the first labelled item, whatever later items hold. */
  lemma {:induction false} FindBoldNameFirst(items: seq<ListItem>, name: string, j: nat)
    requires j < |items| && HasBoldName(items[j], name)
    requires forall i :: 0 <= i < j ==> !HasBoldName(items[i], name)
    ensures FindBoldName(items, name) == ExtractTextBelow(items[j].ownTexts)
  {
    if j > 0 {
      assert !HasBoldName(items[0], name);
      forall i | 0 <= i < j - 1
        ensures !HasBoldName(items[1..][i], name)
      {
        assert items[1..][i] == items[i + 1];
      }
      FindBoldNameFirst(items[1..], name, j - 1);
    }
  }

  /** A field with no labelled item is null, not an error. */
  lemma {:induction false} FindBoldNameMissing(items: seq<ListItem>, name: string)
    requires forall j :: 0 <= j < |items| ==> !HasBoldName(items[j], name)
    ensures FindBoldName(items, name) == None
  {
    if |items| > 0 {
      assert !HasBoldName(items[0], name);
      forall j | 0 <= j < |items| - 1
        ensures !HasBoldName(items[1..][j], name)
      {
        assert items[1..][j] == items[j + 1];
      }
      FindBoldNameMissing(items[1..], name);
    }
  }

  /** A `<strong>` whose string starts with the designation phrase (`^Nonprofit Tax Code Designation`). */
  predicate IsDesignationLabel(s: Option<string>)
  {
    s.Some? && StartsWith(s.value, Title(Designation))
  }

  /** The tax-code designation: the token after the last space of the first
      `<strong>` whose string starts with the field name. */
  function DesignationValue(strongs: seq<Option<string>>): (r: Result<string, ExtractError>)
    ensures r.Failure? <==> forall j :: 0 <= j < |strongs| ==> !IsDesignationLabel(strongs[j])
    ensures r.Failure? ==> r.error == NoDesignationLabel
    ensures r.Success? ==> ' ' !in r.value
  {
    if |strongs| == 0 then Failure(NoDesignationLabel)
    else if IsDesignationLabel(strongs[0]) then Success(AfterLast(Strip(strongs[0].value), ' '))
    else
      var r := DesignationValue(strongs[1..]);
      assert forall j :: 1 <= j < |strongs| ==> strongs[j] == strongs[1..][j - 1];
      r
  }

  /** The designation comes from the first matching `<strong>`, whatever later ones hold. */
  lemma {:induction false} DesignationFirst(strongs: seq<Option<string>>, j: nat)
    requires j < |strongs| && IsDesignationLabel(strongs[j])
    requires forall i :: 0 <= i < j ==> !IsDesignationLabel(strongs[i])
    ensures DesignationValue(strongs) == Success(AfterLast(Strip(strongs[j].value), ' '))
  {
    if j > 0 {
      assert !IsDesignationLabel(strongs[0]);
      forall i | 0 <= i < j - 1
        ensures !IsDesignationLabel(strongs[1..][i])
      {
        assert strongs[1..][i] == strongs[i + 1];
      }
      DesignationFirst(strongs[1..], j - 1);
    }
  }

  /** The token after the last space of a stripped `caption: value` label is the value. */
  lemma LabelValue(caption: string, value: string)
    requires |caption| > 0 && !IsSpace(caption[0])
    requires ' ' !in value && IsStripped(value) && |value| > 0
    ensures AfterLast(Strip(caption + ": " + value), ' ') == value
  {
    var s := caption + ":" + " " + value;
    assert caption + ": " + value == s;
    assert IsStripped(s) by {
      assert s[0] == caption[0];
      assert s[|s| - 1] == value[|value| - 1];
    }
    StripPadded("", s, "");
    assert "" + s + "" == s;
    AfterLastSplit(caption + ":", ' ', value);
  }

  /** A label `Nonprofit Tax Code Designation: 501(c)(3)` gives the designation `501(c)(3)`. */
  lemma DesignationOfLabel(value: string)
    requires ' ' !in value && IsStripped(value) && |value| > 0
    ensures DesignationValue([Some(Title(Designation) + ": " + value)]) == Success(value)
  {
    var caption := Title(Designation) + ": " + value;
    StartsWithConcat(Title(Designation), ": " + value);
    assert Title(Designation) + (": " + value) == caption;
    LabelValue(Title(Designation), value);
  }

  predicate IsGuidestar(a: Anchor)
  {
    "guidestar" in a.classes
  }

  /** `soup.find('a', class_='guidestar')['href']`. */
  function GuidestarHref(anchors: seq<Anchor>): (r: Result<string, ExtractError>)
    ensures r == Failure(NoGuidestarAnchor) <==> forall j :: 0 <= j < |anchors| ==> !IsGuidestar(anchors[j])
    ensures r.Failure? ==> r.error == NoGuidestarAnchor || r.error == GuidestarWithoutHref
  {
    if |anchors| == 0 then Failure(NoGuidestarAnchor)
    else if IsGuidestar(anchors[0]) then
      match anchors[0].href
      case None => Failure(GuidestarWithoutHref)
      case Some(h) => Success(h)
    else
      var r := GuidestarHref(anchors[1..]);
      assert forall j :: 1 <= j < |anchors| ==> anchors[j] == anchors[1..][j - 1];
      r
  }

  /** Only the first guidestar anchor is read: its `href`, or the error of an
      anchor without one. */
  lemma {:induction false} GuidestarFirst(anchors: seq<Anchor>, j: nat)
    requires j < |anchors| && IsGuidestar(anchors[j])
    requires forall i :: 0 <= i < j ==> !IsGuidestar(anchors[i])
    ensures GuidestarHref(anchors) == if anchors[j].href.Some? then Success(anchors[j].href.value) else Failure(GuidestarWithoutHref)
  {
    if j > 0 {
      assert !IsGuidestar(anchors[0]);
      forall i | 0 <= i < j - 1
        ensures !IsGuidestar(anchors[1..][i])
      {
        assert anchors[1..][i] == anchors[i + 1];
      }
      GuidestarFirst(anchors[1..], j - 1);
    }
  }

  /** `tr_with_first_col`: some string inside the row contains `caption`. */
  predicate MentionsLabel(row: TableRow, caption: string)
  {
    exists k :: 0 <= k < |row.strings| && Contains(row.strings[k], caption)
  }

  /** The first row of a card that mentions `caption`. */
  function FindRow(rows: seq<TableRow>, caption: string): (r: Option<TableRow>)
    ensures r.Some? ==> r.value in rows && MentionsLabel(r.value, caption)
    ensures r.None? <==> forall j :: 0 <= j < |rows| ==> !MentionsLabel(rows[j], caption)
  {
    if |rows| == 0 then None
    else if MentionsLabel(rows[0], caption) then Some(rows[0])
    else
      var r := FindRow(rows[1..], caption);
      assert forall j :: 1 <= j < |rows| ==> rows[j] == rows[1..][j - 1];
      r
  }

  /** The row found is the first one that mentions `caption`, whatever later rows hold. */
  lemma {:induction false} FindRowFirst(rows: seq<TableRow>, caption: string, j: nat)
    requires j < |rows| && MentionsLabel(rows[j], caption)
    requires forall i :: 0 <= i < j ==> !MentionsLabel(rows[i], caption)
    ensures FindRow(rows, caption) == Some(rows[j])
  {
    if j > 0 {
      assert !MentionsLabel(rows[0], caption);
      forall i | 0 <= i < j - 1
        ensures !MentionsLabel(rows[1..][i], caption)
      {
        assert rows[1..][i] == rows[i + 1];
      }
      FindRowFirst(rows[1..], caption, j - 1);
      assert rows[1..][j - 1] == rows[j];
    }
  }

  /** The first row mentioning `caption`, for every row that is the first. */
  lemma FindRowFirstAll(rows: seq<TableRow>, caption: string)
    ensures forall j :: 0 <= j < |rows| && MentionsLabel(rows[j], caption) &&
                        (forall k :: 0 <= k < j ==> !MentionsLabel(rows[k], caption)) ==>
              FindRow(rows, caption) == Some(rows[j])
  {
    forall j | 0 <= j < |rows| && MentionsLabel(rows[j], caption) &&
               (forall k :: 0 <= k < j ==> !MentionsLabel(rows[k], caption))
      ensures FindRow(rows, caption) == Some(rows[j])
    {
      FindRowFirst(rows, caption, j);
    }
  }

  /** The `<h4>` of the card's `.left-label`, when both exist. */
  function YearElement(card: Card): (r: Option<Element>)
    ensures r.Some? <==> card.leftLabel.Some? && card.leftLabel.value.h4.Some?
  {
    if card.leftLabel.Some? then card.leftLabel.value.h4 else None
  }

  /** The `th + th` cell of the first row mentioning Total Revenue. */
  function RevenueElement(card: Card): (r: Option<Element>)
    ensures (forall j :: 0 <= j < |card.rows| ==> !MentionsLabel(card.rows[j], Title(TotalRevenue))) ==> r.None?
    ensures r.Some? ==> exists j :: 0 <= j < |card.rows| && MentionsLabel(card.rows[j], Title(TotalRevenue)) && card.rows[j].thAfterTh == r
    ensures forall j :: 0 <= j < |card.rows| && MentionsLabel(card.rows[j], Title(TotalRevenue)) &&
                        (forall k :: 0 <= k < j ==> !MentionsLabel(card.rows[k], Title(TotalRevenue))) ==>
              r == card.rows[j].thAfterTh
  {
    FindRowFirstAll(card.rows, Title(TotalRevenue));
    match FindRow(card.rows, Title(TotalRevenue))
    case None => None
    case Some(row) => row.thAfterTh
  }

  /** The `td + td` cell of the first row mentioning Total Assets. */
  function AssetsElement(card: Card): (r: Option<Element>)
    ensures (forall j :: 0 <= j < |card.rows| ==> !MentionsLabel(card.rows[j], Title(TotalAssets))) ==> r.None?
    ensures r.Some? ==> exists j :: 0 <= j < |card.rows| && MentionsLabel(card.rows[j], Title(TotalAssets)) && card.rows[j].tdAfterTd == r
    ensures forall j :: 0 <= j < |card.rows| && MentionsLabel(card.rows[j], Title(TotalAssets)) &&
                        (forall k :: 0 <= k < j ==> !MentionsLabel(card.rows[k], Title(TotalAssets))) ==>
              r == card.rows[j].tdAfterTd
  {
    FindRowFirstAll(card.rows, Title(TotalAssets));
    match FindRow(card.rows, Title(TotalAssets))
    case None => None
    case Some(row) => row.tdAfterTd
  }

  /** A card from which `parse_year_card` can read all three values. */
  predicate WellFormedCard(card: Card)
  {
    YearElement(card).Some? && RevenueElement(card).Some? && AssetsElement(card).Some?
  }

  /** The year triplet of one card as a record. */
  function YearRecord(year: string, revenue: string, assets: string): (r: Record)
    ensures r.Keys == YearFields
    ensures r[Year] == Some(year) && r[TotalRevenue] == Some(revenue) && r[TotalAssets] == Some(assets)
  {
    map[Year := Some(year), TotalRevenue := Some(revenue), TotalAssets := Some(assets)]
  }

  /** `parse_year_card` wrapped in `none_on_error`: the year triplet of one
      card, or None when any of its three elements is missing. */
  function ParseYearCard(card: Card): (r: Option<Record>)
    ensures r.Some? <==> WellFormedCard(card)
    ensures r.Some? ==> r.value.Keys == YearFields
    ensures r.Some? ==> Cell(r.value, Year) == Some(StrippedText(YearElement(card).value.texts))
    ensures r.Some? ==> Cell(r.value, TotalRevenue) == Some(StrippedText(RevenueElement(card).value.texts))
    ensures r.Some? ==> Cell(r.value, TotalAssets) == Some(StrippedText(AssetsElement(card).value.texts))
  {
    match YearElement(card)
    case None => None
    case Some(year) =>
      match RevenueElement(card)
      case None => None
      case Some(revenue) =>
        match AssetsElement(card)
        case None => None
        case Some(assets) =>
          Some(YearRecord(StrippedText(year.texts), StrippedText(revenue.texts), StrippedText(assets.texts)))
  }

  /** The three values are read with `get_text(strip=True)`: none has
      whitespace at either end. */
  lemma ParseYearCardStripped(card: Card)
    requires ParseYearCard(card).Some?
    ensures IsStripped(Cell(ParseYearCard(card).value, Year).value)
    ensures IsStripped(Cell(ParseYearCard(card).value, TotalRevenue).value)
    ensures IsStripped(Cell(ParseYearCard(card).value, TotalAssets).value)
  {
  }

  /** The records of the cards that parse, in card order (`[x for x in records if x]`). */
  function ParsedCards(cards: seq<Card>): (r: seq<Record>)
    ensures |r| <= |cards|
    ensures forall i :: 0 <= i < |r| ==> r[i].Keys == YearFields
  {
    if |cards| == 0 then []
    else match ParseYearCard(cards[0])
      case None => ParsedCards(cards[1..])
      case Some(x) => [x] + ParsedCards(cards[1..])
  }

  /** A parsed triplet has all three values. */
  predicate HasYearValues(r: Record)
  {
    Cell(r, Year).Some? && Cell(r, TotalRevenue).Some? && Cell(r, TotalAssets).Some?
  }

  /** The first card's triplet, if it parses, followed by the rest. */
  lemma ParsedCardsHead(cards: seq<Card>)
    requires |cards| > 0
    ensures ParsedCards(cards) ==
              (if ParseYearCard(cards[0]).Some? then [ParseYearCard(cards[0]).value] else []) + ParsedCards(cards[1..])
  {
  }

  lemma ParseYearCardValues(card: Card)
    requires ParseYearCard(card).Some?
    ensures HasYearValues(ParseYearCard(card).value)
  {
  }

  lemma HasYearValuesCons(x: Record, rs: seq<Record>)
    requires HasYearValues(x)
    requires forall i :: 0 <= i < |rs| ==> HasYearValues(rs[i])
    ensures forall i :: 0 <= i < |[x] + rs| ==> HasYearValues(([x] + rs)[i])
  {
    forall i | 1 <= i < |[x] + rs|
      ensures HasYearValues(([x] + rs)[i])
    {
      assert ([x] + rs)[i] == rs[i - 1];
    }
  }

  /** Every triplet kept by the card filter has all three values. */
  lemma {:induction false} ParsedCardsHaveValues(cards: seq<Card>)
    ensures forall i :: 0 <= i < |ParsedCards(cards)| ==> HasYearValues(ParsedCards(cards)[i])
  {
    if |cards| > 0 {
      ParsedCardsHaveValues(cards[1..]);
      ParsedCardsHead(cards);
      if ParseYearCard(cards[0]).Some? {
        ParseYearCardValues(cards[0]);
        HasYearValuesCons(ParseYearCard(cards[0]).value, ParsedCards(cards[1..]));
      }
    }
  }

  /** Card parsing keeps document order: the cards of two runs of the page concatenate. */
  lemma {:induction false} ParsedCardsAppend(a: seq<Card>, b: seq<Card>)
    ensures ParsedCards(a + b) == ParsedCards(a) + ParsedCards(b)
  {
    if |a| > 0 {
      assert (a + b)[1..] == a[1..] + b;
      ParsedCardsAppend(a[1..], b);
    } else {
      assert a + b == b;
    }
  }

  /** A malformed card is dropped without affecting the others. */
  lemma MalformedCardDropped(a: seq<Card>, c: Card, b: seq<Card>)
    requires !WellFormedCard(c)
    ensures ParsedCards(a + [c] + b) == ParsedCards(a + b)
  {
    assert ParsedCards([c]) == [] by {
      assert [c][1..] == [];
    }
    ParsedCardsAppend(a, [c]);
    assert ParsedCards(a + [c]) == ParsedCards(a) + [];
    assert ParsedCards(a) + [] == ParsedCards(a);
    ParsedCardsAppend(a + [c], b);
    ParsedCardsAppend(a, b);
  }

  /** When every card is well formed, there is one parsed triplet per card, in order. */
  lemma {:induction false} ParsedCardsAllWellFormed(cards: seq<Card>)
    requires forall i :: 0 <= i < |cards| ==> WellFormedCard(cards[i])
    ensures |ParsedCards(cards)| == |cards|
    ensures forall i :: 0 <= i < |cards| ==> ParsedCards(cards)[i] == ParseYearCard(cards[i]).value
  {
    if |cards| > 0 {
      var tail := cards[1..];
      forall i | 0 <= i < |tail|
        ensures WellFormedCard(tail[i])
      {
        assert tail[i] == cards[i + 1];
      }
      ParsedCardsAllWellFormed(tail);
      var x := ParseYearCard(cards[0]);
      assert x.Some?;
      assert ParsedCards(cards) == [x.value] + ParsedCards(tail);
      forall i | 1 <= i < |cards|
        ensures ParsedCards(cards)[i] == ParseYearCard(cards[i]).value
      {
        ShiftedCard(cards, ParsedCards(cards), ParsedCards(tail), i);
      }
    }
  }

  lemma ShiftedCard(cards: seq<Card>, parsed: seq<Record>, rest: seq<Record>, i: nat)
    requires 1 <= i < |cards| && |rest| == |cards| - 1
    requires forall j :: 0 <= j < |cards| - 1 ==> ParseYearCard(cards[1..][j]).Some? && rest[j] == ParseYearCard(cards[1..][j]).value
    requires |parsed| > 0 && parsed[1..] == rest
    ensures ParseYearCard(cards[i]).Some? && parsed[i] == ParseYearCard(cards[i]).value
  {
    assert cards[1..][i - 1] == cards[i];
    assert parsed[i] == rest[i - 1];
  }

  /** `Metadata`: the trimmed small-label texts joined with `" | "`. */
  function MetadataText(labels: seq<Element>): (r: string)
    ensures |labels| == 0 ==> r == ""
    ensures |labels| == 1 ==> r == StrippedText(labels[0].texts)
    ensures |labels| >= 2 ==> StartsWith(r, StrippedText(labels[0].texts) + " | ")
  {
    Join(seq(|labels|, i requires 0 <= i < |labels| => StrippedText(labels[i].texts)), " | ")
  }

  /** One more small label appends the separator and its stripped text:
      `Metadata` is the `" | "`-join of the labels' texts in document order. */
  lemma MetadataTextSnoc(labels: seq<Element>, l: Element)
    requires |labels| > 0
    ensures MetadataText(labels + [l]) == MetadataText(labels) + " | " + StrippedText(l.texts)
  {
    var parts := seq(|labels|, i requires 0 <= i < |labels| => StrippedText(labels[i].texts));
    var all := labels + [l];
    var partsAll := seq(|all|, i requires 0 <= i < |all| => StrippedText(all[i].texts));
    assert partsAll == parts + [StrippedText(l.texts)];
    JoinSnoc(parts, StrippedText(l.texts), " | ");
  }

  /** The small labels can be read back from `Metadata` when none contains `|`. */
  lemma MetadataLabels(labels: seq<Element>)
    requires |labels| > 0
    requires forall i, k :: 0 <= i < |labels| && 0 <= k < |labels[i].texts| ==> '|' !in labels[i].texts[k]
    ensures StripAll(Split(MetadataText(labels), '|')) == seq(|labels|, i requires 0 <= i < |labels| => StrippedText(labels[i].texts))
  {
    var parts := seq(|labels|, i requires 0 <= i < |labels| => StrippedText(labels[i].texts));
    forall i | 0 <= i < |parts|
      ensures '|' !in parts[i] && IsStripped(parts[i])
    {
      StrippedTextSubset(labels[i].texts, '|');
    }
    SplitJoin(parts);
  }

  /** The header fields of one page as a record. */
  function IdentityRecord(name: string, metadata: string, ein: Option<string>, classification: Option<string>,
                          designation: string, guidestar: string): (r: Record)
    ensures r.Keys == IdentityFields
    ensures r[Name] == Some(name) && r[Metadata] == Some(metadata) && r[Ein] == ein
    ensures r[Classification] == classification && r[Designation] == Some(designation) && r[GuidestarUrl] == Some(guidestar)
  {
    map[Name := Some(name), Metadata := Some(metadata), Ein := ein, Classification := classification,
        Designation := Some(designation), GuidestarUrl := Some(guidestar)]
  }

  /** The fields read from the page header (steps before the cards in `extract_data`). */
  function Identity(page: DetailPage): (r: Result<Record, ExtractError>)
    requires page.heading.Some?
    ensures r.Success? ==> r.value.Keys == IdentityFields
    ensures r.Success? <==> DesignationValue(page.strongs).Success? && GuidestarHref(page.anchors).Success?
    ensures r.Failure? && DesignationValue(page.strongs).Failure? ==> r.error == NoDesignationLabel
  {
    match DesignationValue(page.strongs)
    case Failure(e) => Failure(e)
    case Success(designation) =>
      match GuidestarHref(page.anchors)
      case Failure(e) => Failure(e)
      case Success(guidestar) =>
        Success(IdentityRecord(StrippedText(page.heading.value.texts), MetadataText(page.smallLabels),
                               FindBoldName(page.listItems, Title(Ein)), FindBoldName(page.listItems, Title(Classification)),
                               designation, guidestar))
  }

  /** Where each header field comes from: the heading text, the joined small
      labels, the two labelled list items, the designation label and the anchor. */
  lemma IdentityValues(page: DetailPage)
    requires page.heading.Some? && Identity(page).Success?
    ensures Identity(page).value[Name] == Some(StrippedText(page.heading.value.texts))
    ensures Identity(page).value[Metadata] == Some(MetadataText(page.smallLabels))
    ensures Identity(page).value[Ein] == FindBoldName(page.listItems, Title(Ein))
    ensures Identity(page).value[Classification] == FindBoldName(page.listItems, Title(Classification))
    ensures Identity(page).value[Designation] == Some(DesignationValue(page.strongs).value)
    ensures Identity(page).value[GuidestarUrl] == Some(GuidestarHref(page.anchors).value)
  {
  }

  /** The triplet of a page whose cards all failed: three nulls. */
  const MissingYear: Record := map[Year := None, TotalRevenue := None, TotalAssets := None]

  /** `{**data, **x}`: the header fields with one card's triplet over them. */
  function Merge(data: Record, card: Record): (r: Record)
    ensures r.Keys == data.Keys + card.Keys
    ensures forall f :: f in card ==> r[f] == card[f]
    ensures forall f :: f in data && f !in card ==> r[f] == data[f]
  {
    data + card
  }

  /** The last step of `extract_data`: one record per parsed card, or one
      record with a null triplet when no card parsed. */
  function PageRecords(data: Record, cards: seq<Record>): (rs: seq<Record>)
    ensures |rs| == if |cards| == 0 then 1 else |cards|
    ensures |cards| == 0 ==> rs[0] == Merge(data, MissingYear)
    ensures forall i :: 0 <= i < |cards| ==> rs[i] == Merge(data, cards[i])
  {
    if |cards| == 0 then [Merge(data, MissingYear)]
    else seq(|cards|, i requires 0 <= i < |cards| => Merge(data, cards[i]))
  }

  /** Every page record has exactly the header fields and the triplet, and
      the header fields are the same in all of them. */
  lemma PageRecordsShape(data: Record, cards: seq<Record>)
    requires data.Keys == IdentityFields
    requires forall i :: 0 <= i < |cards| ==> cards[i].Keys == YearFields
    ensures forall i :: 0 <= i < |PageRecords(data, cards)| ==> PageRecords(data, cards)[i].Keys == RecordFields
    ensures forall i, f :: 0 <= i < |PageRecords(data, cards)| && f in IdentityFields ==> PageRecords(data, cards)[i][f] == data[f]
  {
  }

  /** Each page record carries its card's triplet, or nulls when no card parsed. */
  lemma PageRecordsYears(data: Record, cards: seq<Record>)
    requires forall i :: 0 <= i < |cards| ==> cards[i].Keys == YearFields
    ensures forall i, f :: 0 <= i < |cards| && f in YearFields ==> Cell(PageRecords(data, cards)[i], f) == Cell(cards[i], f)
    ensures |cards| == 0 ==> forall f :: f in YearFields ==> Cell(PageRecords(data, cards)[0], f) == None
  {
  }

  /** `extract_data`: the records of one detail page. */
  function ExtractData(page: DetailPage): (r: Result<seq<Record>, ExtractError>)
    ensures page.heading.None? ==> r == Success([])
    ensures page.heading.Some? ==> (r.Success? <==> Identity(page).Success?)
  {
    if page.heading.None? then Success([])
    else
      match Identity(page)
      case Failure(e) => Failure(e)
      case Success(data) => Success(PageRecords(data, ParsedCards(page.cards)))
  }

  /** A page with a heading and readable header fields yields the page records. */
  lemma ExtractDataRecords(page: DetailPage)
    requires page.heading.Some? && Identity(page).Success?
    ensures ExtractData(page) == Success(PageRecords(Identity(page).value, ParsedCards(page.cards)))
  {
  }

  /** Every record has exactly the header fields and the year triplet, and
      there is at least one record per page that has a heading. */
  lemma RecordShape(page: DetailPage)
    requires ExtractData(page).Success?
    ensures page.heading.Some? ==> |ExtractData(page).value| >= 1
    ensures forall i :: 0 <= i < |ExtractData(page).value| ==> ExtractData(page).value[i].Keys == RecordFields
  {
    if page.heading.Some? {
      ExtractDataRecords(page);
      PageRecordsShape(Identity(page).value, ParsedCards(page.cards));
    }
  }

  /** Without a heading nothing else on the page matters: no records, no error. */
  lemma NoHeadingNoRecords(page: DetailPage)
    requires page.heading.None?
    ensures forall p: DetailPage :: p.heading.None? ==> ExtractData(p) == ExtractData(page)
  {
  }

  /** Every record of a page carries the same header fields, the page's own. */
  lemma SharedIdentity(page: DetailPage)
    requires page.heading.Some? && Identity(page).Success?
    ensures forall i, f :: 0 <= i < |ExtractData(page).value| && f in IdentityFields ==>
              Cell(ExtractData(page).value[i], f) == Cell(Identity(page).value, f)
  {
    ExtractDataRecords(page);
    PageRecordsShape(Identity(page).value, ParsedCards(page.cards));
  }

  /** With N >= 1 well-formed cards there are N records in card order, each
      carrying that card's year triplet. */
  lemma CardRecords(page: DetailPage)
    requires page.heading.Some? && Identity(page).Success?
    requires |ParsedCards(page.cards)| > 0
    ensures |ExtractData(page).value| == |ParsedCards(page.cards)|
    ensures forall i, f :: 0 <= i < |ParsedCards(page.cards)| && f in YearFields ==>
              Cell(ExtractData(page).value[i], f) == Cell(ParsedCards(page.cards)[i], f)
  {
    ExtractDataRecords(page);
    PageRecordsYears(Identity(page).value, ParsedCards(page.cards));
  }

  /** With a heading but no card that parses there is exactly one record, with a null year triplet. */
  lemma NoCardsOneRecord(page: DetailPage)
    requires page.heading.Some? && Identity(page).Success?
    requires forall i :: 0 <= i < |page.cards| ==> !WellFormedCard(page.cards[i])
    ensures |ExtractData(page).value| == 1
    ensures forall f :: f in YearFields ==> Cell(ExtractData(page).value[0], f) == None
  {
    NoWellFormedNoParsed(page.cards);
    ExtractDataRecords(page);
    PageRecordsYears(Identity(page).value, ParsedCards(page.cards));
  }

  lemma {:induction false} NoWellFormedNoParsed(cards: seq<Card>)
    requires forall i :: 0 <= i < |cards| ==> !WellFormedCard(cards[i])
    ensures ParsedCards(cards) == []
  {
    if |cards| > 0 {
      NoWellFormedNoParsed(cards[1..]);
    }
  }

  /** A heading with no designation label is an error, whatever the cards are. */
  lemma MissingDesignationFails(page: DetailPage)
    requires page.heading.Some?
    requires forall j :: 0 <= j < |page.strongs| ==> !IsDesignationLabel(page.strongs[j])
    ensures ExtractData(page) == Failure(NoDesignationLabel)
  {
  }

  /** A heading with no guidestar anchor is an error, whatever the cards are;
      past the designation label the error names the missing anchor. */
  lemma MissingGuidestarFails(page: DetailPage)
    requires page.heading.Some?
    requires forall j :: 0 <= j < |page.anchors| ==> !IsGuidestar(page.anchors[j])
    ensures ExtractData(page).Failure?
    ensures DesignationValue(page.strongs).Success? ==> ExtractData(page) == Failure(NoGuidestarAnchor)
  {
  }
}

=== FILE: html.dfy ===
/** The parts of a parsed HTML page that the scraper looks at, as plain values.
    Each field stands for the result of one BeautifulSoup query; the parse tree
    itself and the CSS selector engine are not modelled. */
module Html {
  import opened Wrappers

  /** An element reduced to its descendant text nodes, in document order. */
  datatype Element = Element(texts: seq<string>)

  /** A `<li>`: the `.string` of each `<strong>` inside it (None when the
      `<strong>` has more than one child), and its own direct text nodes. */
  datatype ListItem = ListItem(strongs: seq<Option<string>>, ownTexts: seq<string>)

  /** An `<a>`: its CSS classes and its `href` attribute, if it has one. */
  datatype Anchor = Anchor(classes: seq<string>, href: Option<string>)

  /** A `<tr>` inside a filing card: its descendant strings, the `th + th`
      cell and the `td + td` cell (None when the selector matches nothing). */
  datatype TableRow = TableRow(strings: seq<string>, thAfterTh: Option<Element>, tdAfterTd: Option<Element>)

  /** The `.left-label` element of a card and the `<h4>` inside it. */
  datatype LeftLabel = LeftLabel(h4: Option<Element>)

  /** One `.single-filing` card: its first `.left-label` and its rows in document order. */
  datatype Card = Card(leftLabel: Option<LeftLabel>, rows: seq<TableRow>)

  /** An organization detail page. */
  datatype DetailPage = DetailPage(
    heading: Option<Element>,      // `.left-col > h1`
    smallLabels: seq<Element>,     // `.left-col > span.small-label`, in document order
    listItems: seq<ListItem>,      // every `<li>`, in document order
    strongs: seq<Option<string>>,  // the `.string` of every `<strong>`, in document order
    anchors: seq<Anchor>,          // every `<a>`, in document order
    cards: seq<Card>)              // `.single-filing`, in document order

  /** A search-results page: whether it has any `<a>` at all, the `href` of
      each `td a` in document order, and whether `span.current + span` exists. */
  datatype SearchPage = SearchPage(hasAnchor: bool, links: seq<Option<string>>, hasNext: bool)
}

=== FILE: output.dfy ===
/** `main`: run the crawl, build a table from the records, drop duplicate
    rows, keep the ten output columns in their fixed order and write the
    checkpoint file that the next run resumes from. */
module Output {
  import opened Wrappers
  import opened Seqs
  import opened Html
  import opened Records
  import opened Scrape
  import opened Runner

  /** `cdf[cols]` raises KeyError naming the columns the table does not have. */
  datatype FlushError = MissingColumns(columns: set<Field>)

  /** The columns of `pd.DataFrame(records)`: every key some record has. */
  function Keys(rs: seq<Record>): (k: set<Field>)
    ensures forall i :: 0 <= i < |rs| ==> rs[i].Keys <= k
  {
    if |rs| == 0 then {} else rs[0].Keys + Keys(rs[1..])
  }

  /** A record that has column `f`, for every column of the frame: `Keys`
      holds no other columns. */
  function KeyOwner(rs: seq<Record>, f: Field): (i: nat)
    requires f in Keys(rs)
    ensures i < |rs| && f in rs[i]
  {
    if f in rs[0] then 0 else 1 + KeyOwner(rs[1..], f)
  }

  /** Each record's cells in the fixed column order. */
  function ProjectAll(rs: seq<Record>): (t: Table)
    ensures |t| == |rs|
    ensures forall i :: 0 <= i < |rs| ==> t[i] == Project(rs[i])
  {
    seq(|rs|, i requires 0 <= i < |rs| => Project(rs[i]))
  }

  /** `pd.DataFrame(results)`, `drop_duplicates()`, then `cdf[cols]`. Every
      key is one of the ten columns, so a row of the frame is exactly its
      projection, and deduplicating the frame deduplicates the projections. */
  function Flush(rs: seq<Record>): (r: Result<Table, FlushError>)
    ensures r.Failure? <==> !(ColumnSet <= Keys(rs))
    ensures r.Failure? ==> r.error.columns == ColumnSet - Keys(rs)
    ensures r.Success? ==> Distinct(r.value)
  {
    if !(ColumnSet <= Keys(rs)) then Failure(MissingColumns(ColumnSet - Keys(rs)))
    else Success(Dedup(ProjectAll(rs)))
  }

  /** Every record has its row in the written table. */
  lemma FlushKeepsRecords(rs: seq<Record>)
    requires Flush(rs).Success?
    ensures forall i :: 0 <= i < |rs| ==> Project(rs[i]) in Flush(rs).value
  {
    var t := ProjectAll(rs);
    var out := Dedup(t);
    assert Flush(rs).value == out;
    forall i | 0 <= i < |rs|
      ensures Project(rs[i]) in out
    {
      DedupKeeps(t, i);
    }
  }

  /** Every written row is the row of some record. */
  lemma FlushInventsNothing(rs: seq<Record>)
    requires Flush(rs).Success?
    ensures forall k :: 0 <= k < |Flush(rs).value| ==> Flush(rs).value[k] in ProjectAll(rs)
  {
    var t := ProjectAll(rs);
    assert Flush(rs).value == Dedup(t);
    forall k | 0 <= k < |Dedup(t)|
      ensures Dedup(t)[k] in t
    {
      DedupFrom(t, k);
    }
  }

  /** An empty result list has no columns at all: `main` raises KeyError and
      writes nothing. */
  lemma FlushEmpty()
    ensures Flush([]) == Failure(MissingColumns(ColumnSet))
  {
    var none: seq<Record> := [];
    assert Keys(none) == {};
    assert Url in ColumnSet;
    assert ColumnSet - Keys(none) == ColumnSet;
  }

  /** A non-empty list of complete records always flushes. */
  lemma FlushComplete(rs: seq<Record>)
    requires |rs| > 0 && Complete(rs)
    ensures Flush(rs).Success?
  {
    assert rs[0].Keys <= Keys(rs);
  }

  /** The row images of a table read back as records. */
  lemma ProjectTableRecords(t: Table)
    ensures ProjectAll(TableRecords(t)) == t
  {
    forall i | 0 <= i < |t|
      ensures ProjectAll(TableRecords(t))[i] == t[i]
    {
      ProjectRowRecord(t[i]);
    }
  }

  /** Writing a table without repeated rows and flushing what is read back
      reproduces the table. */
  lemma FlushRoundTrip(t: Table)
    requires |t| > 0 && Distinct(t)
    ensures Flush(TableRecords(t)) == Success(t)
  {
    var rs := TableRecords(t);
    assert rs[0].Keys == ColumnSet;
    assert ColumnSet <= Keys(rs);
    ProjectTableRecords(t);
    DedupDistinct(t);
  }

  /** Flushing is stable: reading back what was written and flushing again
      writes the same file. */
  lemma FlushStable(rs: seq<Record>)
    requires Flush(rs).Success? && |rs| > 0
    ensures Flush(TableRecords(Flush(rs).value)) == Flush(rs)
  {
    var out := Flush(rs).value;
    FlushKeepsRecords(rs);
    assert Project(rs[0]) in out;
    FlushRoundTrip(out);
  }

  /** What one run of the script does: the crawl and the file it writes. */
  datatype Session = Session(run: Run, written: Result<Table, FlushError>)

  /** `main()`: `scrape_companies()` with its defaults (all companies, no
      offset), then the flush. `prior` is the checkpoint file left by an
      earlier run, if any; `pages` are the server's successive answers. */
  function Main(companies: seq<string>, prior: Option<Table>, pages: seq<DetailPage>): (s: Session)
    ensures s.written.Success? <==> |s.run.results| > 0
    ensures s.written.Success? ==> Distinct(s.written.value)
  {
    var run := ScrapeCompanies(companies, 0, None, prior, pages);
    if |run.results| > 0 then FlushComplete(run.results); Session(run, Flush(run.results))
    else Session(run, Flush(run.results))
  }

  /** Resuming from a non-empty checkpoint file keeps every row it had, and
      no URL listed in it is fetched again. */
  lemma ResumeKeepsRows(companies: seq<string>, t: Table, pages: seq<DetailPage>)
    requires |t| > 0
    ensures Main(companies, Some(t), pages).written.Success?
    ensures forall k :: 0 <= k < |t| ==> t[k] in Main(companies, Some(t), pages).written.value
    ensures forall k :: 0 <= k < |Main(companies, Some(t), pages).run.progress.fetched| ==>
              Main(companies, Some(t), pages).run.progress.fetched[k] !in CompletionIndex(t)
  {
    var s := Main(companies, Some(t), pages);
    var rs := s.run.results;
    assert rs[..|t|] == TableRecords(t);
    FlushKeepsRecords(rs);
    forall k | 0 <= k < |t|
      ensures t[k] in s.written.value
    {
      assert rs[k] == RowRecord(t[k]);
      ProjectRowRecord(t[k]);
    }
  }

  /** Where the i-th row of a run's results comes from: the checkpoint
      file, or a target fetched in this run (its URL is the row's first cell). */
  lemma RowOrigin(rs: seq<Record>, prior: Option<Table>, fetched: seq<string>, i: nat)
    requires |Seed(prior)| <= |rs| && rs[..|Seed(prior)|] == Seed(prior)
    requires forall k :: |Seed(prior)| <= k < |rs| ==> Cell(rs[k], Url).Some? && Cell(rs[k], Url).value in fetched
    requires i < |rs|
    ensures (prior.Some? && Project(rs[i]) in prior.value) || (Project(rs[i])[0].Some? && Project(rs[i])[0].value in fetched)
  {
    var seed := Seed(prior);
    if i < |seed| {
      assert rs[i] == seed[i];
      var t := prior.value;
      assert seed[i] == RowRecord(t[i]);
      ProjectRowRecord(t[i]);
    } else {
      assert Columns[0] == Url;
      assert Project(rs[i])[0] == Cell(rs[i], Url);
    }
  }

  /** Every flushed row comes from the checkpoint file or from a fetched target. */
  lemma FlushedRowsAccounted(rs: seq<Record>, prior: Option<Table>, fetched: seq<string>)
    requires |Seed(prior)| <= |rs| && rs[..|Seed(prior)|] == Seed(prior)
    requires forall k :: |Seed(prior)| <= k < |rs| ==> Cell(rs[k], Url).Some? && Cell(rs[k], Url).value in fetched
    requires Flush(rs).Success?
    ensures forall k :: 0 <= k < |Flush(rs).value| ==>
              (prior.Some? && Flush(rs).value[k] in prior.value)
              || (Flush(rs).value[k][0].Some? && Flush(rs).value[k][0].value in fetched)
  {
    var out := Flush(rs).value;
    forall k | 0 <= k < |out|
      ensures (prior.Some? && out[k] in prior.value) || (out[k][0].Some? && out[k][0].value in fetched)
    {
      FlushedRowOrigin(rs, prior, fetched, k);
    }
  }

  lemma FlushedRowOrigin(rs: seq<Record>, prior: Option<Table>, fetched: seq<string>, k: nat)
    requires |Seed(prior)| <= |rs| && rs[..|Seed(prior)|] == Seed(prior)
    requires forall k :: |Seed(prior)| <= k < |rs| ==> Cell(rs[k], Url).Some? && Cell(rs[k], Url).value in fetched
    requires Flush(rs).Success? && k < |Flush(rs).value|
    ensures var row := Flush(rs).value[k];
            (prior.Some? && row in prior.value) || (row[0].Some? && row[0].value in fetched)
  {
    FlushInventsNothing(rs);
    var t := ProjectAll(rs);
    assert Flush(rs).value[k] in t;
    var i :| 0 <= i < |t| && t[i] == Flush(rs).value[k];
    RowOrigin(rs, prior, fetched, i);
  }

  /** A flushed row of the checkpoint's records followed by the new batches
      is a checkpoint row or the row of a record of some batch. */
  lemma FlushedRowFrom(prior: Option<Table>, batches: seq<seq<Record>>, k: nat)
    requires Flush(Seed(prior) + Flatten(batches)).Success?
    requires k < |Flush(Seed(prior) + Flatten(batches)).value|
    ensures var row := Flush(Seed(prior) + Flatten(batches)).value[k];
            (prior.Some? && row in prior.value) || row in ProjectAll(Flatten(batches))
  {
    var seed := Seed(prior);
    var rs := seed + Flatten(batches);
    FlushInventsNothing(rs);
    var t := ProjectAll(rs);
    var i :| 0 <= i < |t| && t[i] == Flush(rs).value[k];
    if i < |seed| {
      assert rs[i] == seed[i] == RowRecord(prior.value[i]);
      ProjectRowRecord(prior.value[i]);
    } else {
      assert rs[i] == Flatten(batches)[i - |seed|];
      assert ProjectAll(Flatten(batches))[i - |seed|] == t[i];
    }
  }

  /** Every written row is either a row of the checkpoint file or the row of
      a record of a batch `scrape_company` returned in this run, whose URL
      cell names a fetched target. */
  lemma WrittenRowsAccounted(companies: seq<string>, prior: Option<Table>, pages: seq<DetailPage>)
    requires Main(companies, prior, pages).written.Success?
    ensures var s := Main(companies, prior, pages);
            forall k :: 0 <= k < |s.written.value| ==>
              (prior.Some? && s.written.value[k] in prior.value)
              || s.written.value[k] in ProjectAll(Flatten(s.run.progress.batches))
    ensures var s := Main(companies, prior, pages);
            forall k :: 0 <= k < |s.written.value| ==>
              (prior.Some? && s.written.value[k] in prior.value)
              || (s.written.value[k][0].Some? && s.written.value[k][0].value in s.run.progress.fetched)
  {
    var run := ScrapeCompanies(companies, 0, None, prior, pages);
    assert Main(companies, prior, pages) == Session(run, Flush(run.results));
    FlushedRowsAccounted(run.results, prior, run.progress.fetched);
    ResultsInInputOrder(companies, 0, None, prior, pages);
    forall k | 0 <= k < |Flush(run.results).value|
      ensures (prior.Some? && Flush(run.results).value[k] in prior.value)
              || Flush(run.results).value[k] in ProjectAll(Flatten(run.progress.batches))
    {
      FlushedRowFrom(prior, run.progress.batches, k);
    }
  }

  /** Once every company's URL is in the checkpoint file, running again
      fetches nothing and rewrites the same file. */
  lemma RerunIsFixedPoint(companies: seq<string>, t: Table, pages: seq<DetailPage>)
    requires |t| > 0 && Distinct(t)
    requires forall j :: 0 <= j < |companies| ==> Site + companies[j] in CompletionIndex(t)
    ensures Main(companies, Some(t), pages).run.progress.fetched == []
    ensures Main(companies, Some(t), pages).written == Success(t)
  {
    var urls := Targets(companies, 0, None);
    assert SliceBound(0, |companies|) == 0;
    NothingLeftCompletes(urls, CompletionIndex(t), Fetches(pages));
    var run := ScrapeCompanies(companies, 0, None, Some(t), pages);
    assert run.progress.batches == [];
    assert run.results == TableRecords(t);
    FlushRoundTrip(t);
  }
}

=== FILE: records.dfy ===
/** Records (one output row as a dictionary) and the persisted table layout. */
module Records {
  import opened Wrappers

  /** The dictionary keys the scraper uses; `Title` gives each one's spelling,
      which is also its column header in the output file. */
  datatype Field =
    | Url | GuidestarUrl | Name | Metadata | Ein
    | Designation | Classification | Year | TotalRevenue | TotalAssets

  function Title(f: Field): string
  {
    match f
    case Url => "URL"
    case GuidestarUrl => "Guidestar URL"
    case Name => "Name"
    case Metadata => "Metadata"
    case Ein => "EIN"
    case Designation => "Nonprofit Tax Code Designation"
    case Classification => "Classification"
    case Year => "Year"
    case TotalRevenue => "Total Revenue"
    case TotalAssets => "Total Assets"
  }

  /** One row of results: field to value, None standing for Python's `None` / NaN. */
  type Record = map<Field, Option<string>>

  /** Fields read from the page header, the same for every record of one page. */
  const IdentityFields: set<Field> := {Name, Metadata, Ein, Classification, Designation, GuidestarUrl}

  /** The year triplet read from one filing card. */
  const YearFields: set<Field> := {Year, TotalRevenue, TotalAssets}

  /** Every field the extractor produces. */
  const RecordFields: set<Field> := IdentityFields + YearFields

  /** The fixed column order of the output file. */
  const Columns: seq<Field> := [Url, GuidestarUrl, Name, Metadata, Ein, Designation, Classification, Year, TotalRevenue, TotalAssets]

  /** Every field there is; a stamped record has all of them. */
  const ColumnSet: set<Field> := RecordFields + {Url}

  /** Where each field sits in the column order. */
  function ColumnIndex(f: Field): (i: nat)
    ensures i < |Columns| && Columns[i] == f
  {
    match f
    case Url => 0
    case GuidestarUrl => 1
    case Name => 2
    case Metadata => 3
    case Ein => 4
    case Designation => 5
    case Classification => 6
    case Year => 7
    case TotalRevenue => 8
    case TotalAssets => 9
  }

  /** The column order names each field exactly once. */
  lemma ColumnsArePermutation()
    ensures |Columns| == 10
    ensures forall i, j :: 0 <= i < j < |Columns| ==> Columns[i] != Columns[j]
    ensures forall f: Field :: f in ColumnSet && f in Columns
  {
    forall i | 0 <= i < |Columns|
      ensures ColumnIndex(Columns[i]) == i
    {
    }
    forall f: Field
      ensures f in ColumnSet && f in Columns
    {
      assert Columns[ColumnIndex(f)] == f;
    }
  }

  /** The value a DataFrame built from records shows in column `f`: NaN when the key is absent. */
  function Cell(r: Record, f: Field): Option<string>
  {
    if f in r then r[f] else None
  }

  /** One line of the output file, cells in `Columns` order. */
  type Row = row: seq<Option<string>> | |row| == 10 witness [None, None, None, None, None, None, None, None, None, None]

  type Table = seq<Row>

  /** `cdf[cols]` for one record: its cells in the fixed column order. */
  function Project(r: Record): (row: Row)
    ensures forall i :: 0 <= i < |Columns| ==> row[i] == Cell(r, Columns[i])
  {
    [Cell(r, Url), Cell(r, GuidestarUrl), Cell(r, Name), Cell(r, Metadata), Cell(r, Ein),
     Cell(r, Designation), Cell(r, Classification), Cell(r, Year), Cell(r, TotalRevenue), Cell(r, TotalAssets)]
  }

  /** `rf.to_dict(orient='records')` for one line of the output file. */
  function RowRecord(row: Row): (r: Record)
    ensures r.Keys == ColumnSet
  {
    map[Url := row[0], GuidestarUrl := row[1], Name := row[2], Metadata := row[3], Ein := row[4],
        Designation := row[5], Classification := row[6], Year := row[7], TotalRevenue := row[8], TotalAssets := row[9]]
  }

  /** Reading a written row back and projecting it again gives the same row. */
  lemma ProjectRowRecord(row: Row)
    ensures Project(RowRecord(row)) == row
  {
  }

  /** A record with every field survives being written and read back. */
  lemma RowRecordProject(r: Record)
    requires r.Keys == ColumnSet
    ensures RowRecord(Project(r)) == r
  {
  }

  /** `pd.read_csv(...).to_dict(orient='records')` on a previously written file. */
  function TableRecords(t: Table): (rs: seq<Record>)
    ensures |rs| == |t|
    ensures forall i :: 0 <= i < |t| ==> rs[i] == RowRecord(t[i])
  {
    if |t| == 0 then [] else [RowRecord(t[0])] + TableRecords(t[1..])
  }
}

=== FILE: runner.dfy ===
/** The batch crawl (`scrape_companies`) and its generator variant
    (`scrape_process`): pick the target URLs, skip the ones already in the
    checkpoint file, scrape the rest in order, and stop at the first error. */
module Runner {
  import opened Wrappers
  import opened Seqs
  import opened Html
  import opened Records
  import opened Extract
  import opened Scrape

  /** The host prepended to every relative company link. */
  const Site: string := "https://projects.propublica.org"

  /** Where a Python slice bound `i` lands in a sequence of length `n`:
      negative bounds count from the end, and both directions clamp. */
  function SliceBound(i: int, n: nat): (r: nat)
    ensures r <= n
    ensures 0 <= i <= n ==> r == i
    ensures n < i ==> r == n
    ensures i < 0 <= i + n ==> r == i + n
    ensures i + n < 0 ==> r == 0
  {
    if i < 0 then (if i + n < 0 then 0 else i + n)
    else if i > n then n else i
  }

  /** How many elements `xs[start:stop]` keeps when `len(xs) == n`: the
      distance between the two clamped bounds, or none when they cross. */
  function SliceLength(start: int, stop: Option<int>, n: nat): (k: nat)
    ensures SliceBound(start, n) + k <= n
    ensures stop.None? && start >= 0 ==> k == (if start < n then n - start else 0)
    ensures stop.None? && start < 0 ==> k == (if 0 - start <= n then 0 - start else n)
    ensures stop.Some? && 0 <= start <= stop.value <= n ==> k == stop.value - start
    ensures stop.Some? && 0 <= stop.value <= start ==> k == 0
  {
    var lo := SliceBound(start, n);
    var hi := if stop.None? then n else SliceBound(stop.value, n);
    if lo < hi then hi - lo else 0
  }

  /** `xs[start:stop]` with Python's slice semantics (`stop` None means to the end). */
  function PySlice<T>(xs: seq<T>, start: int, stop: Option<int>): (r: seq<T>)
    ensures |r| == SliceLength(start, stop, |xs|)
    ensures forall k :: 0 <= k < |r| ==> r[k] == xs[SliceBound(start, |xs|) + k]
  {
    var lo := SliceBound(start, |xs|);
    var hi := if stop.None? then |xs| else SliceBound(stop.value, |xs|);
    if lo < hi then xs[lo..hi] else []
  }

  /** A slice with bounds inside the sequence is the plain subsequence; an
      empty or inverted range is empty. */
  lemma PySliceInRange<T>(xs: seq<T>, start: int, stop: int)
    requires 0 <= start && 0 <= stop <= |xs|
    ensures start < stop ==> PySlice(xs, start, Some(stop)) == xs[start..stop]
    ensures stop <= start ==> PySlice(xs, start, Some(stop)) == []
  {
  }

  /** A negative start keeps that many elements from the end. */
  lemma PySliceTail<T>(xs: seq<T>, k: int)
    requires 0 < k <= |xs|
    ensures PySlice(xs, 0 - k, None) == xs[|xs| - k..]
    ensures |PySlice(xs, 0 - k, None)| == k
  {
  }

  /** The site prefix on every company link (`'https://...' + df.Company`). */
  function Prefixed(companies: seq<string>): (all: seq<string>)
    ensures |all| == |companies|
    ensures forall j :: 0 <= j < |companies| ==> all[j] == Site + companies[j]
  {
    seq(|companies|, j requires 0 <= j < |companies| => Site + companies[j])
  }

  /** The target URLs: the prefixed company links, then `iloc[offset:size]`. */
  function Targets(companies: seq<string>, offset: int, size: Option<int>): (urls: seq<string>)
    ensures |urls| == SliceLength(offset, size, |companies|)
    ensures forall k :: 0 <= k < |urls| ==> urls[k] == Site + companies[SliceBound(offset, |companies|) + k]
  {
    PySlice(Prefixed(companies), offset, size)
  }

  /** With the defaults `main` uses, every company is a target, in file order. */
  lemma TargetsDefault(companies: seq<string>)
    ensures |Targets(companies, 0, None)| == |companies|
    ensures forall j :: 0 <= j < |companies| ==> Targets(companies, 0, None)[j] == Site + companies[j]
  {
  }

  /** The URL column of the checkpoint file as a set (`set(rf.URL)`); a row
      whose URL cell is empty contributes nothing a URL can match. */
  function CompletionIndex(t: Table): (done: set<string>)
    ensures forall i :: 0 <= i < |t| && t[i][0].Some? ==> t[i][0].value in done
    ensures forall u :: u in done ==> exists i :: 0 <= i < |t| && t[i][0] == Some(u)
  {
    set i | 0 <= i < |t| && t[i][0].Some? :: t[i][0].value
  }

  /** The targets the loop will try to scrape: those not in `scraped`, in order. */
  function Unscraped(urls: seq<string>, scraped: set<string>): (r: seq<string>)
    ensures |r| <= |urls|
    ensures forall k :: 0 <= k < |r| ==> r[k] in urls && r[k] !in scraped
    ensures forall u :: u in urls && u !in scraped ==> u in r
  {
    if |urls| == 0 then []
    else if urls[0] in scraped then Unscraped(urls[1..], scraped)
    else [urls[0]] + Unscraped(urls[1..], scraped)
  }

  /** A single target is kept exactly when it is not in `scraped`. */
  lemma UnscrapedSingle(u: string, scraped: set<string>)
    ensures Unscraped([u], scraped) == if u in scraped then [] else [u]
  {
    assert [u][1..] == [];
  }

  /** Filtering keeps input order: the kept targets of two runs of targets
      are the kept targets of the first followed by those of the second. */
  lemma {:induction false} UnscrapedAppend(a: seq<string>, b: seq<string>, scraped: set<string>)
    ensures Unscraped(a + b, scraped) == Unscraped(a, scraped) + Unscraped(b, scraped)
  {
    if |a| == 0 {
      assert a + b == b;
    } else {
      assert (a + b)[0] == a[0];
      assert (a + b)[1..] == a[1..] + b;
      UnscrapedAppend(a[1..], b, scraped);
    }
  }

  /** Why a crawl stopped. */
  datatype StopReason =
    | Completed                    // every target was visited
    | Crashed(error: ExtractError) // `extract_data` raised: `scrape_companies` swallows it and ends; out of `scrape_process` it propagates to the caller
    | UserInterrupt                // `except KeyboardInterrupt` while a target kept being refused
    | OutOfRange                   // `iloc` raised IndexError (only `scrape_process`)

  /** The URLs a crawl started on, the records it got for each finished one,
      how it stopped, how many server answers it consumed, and how many it
      had consumed before each target that finished (and before the one
      after them). */
  datatype Progress = Progress(fetched: seq<string>, batches: seq<seq<Record>>, stop: StopReason, used: nat, cuts: seq<nat>)

  /** Every cut moved on by the `n` answers of a target fetched before them. */
  function Later(cuts: seq<nat>, n: nat): (r: seq<nat>)
    ensures |r| == |cuts|
    ensures forall i :: 0 <= i < |cuts| ==> r[i] == cuts[i] + n
  {
    seq(|cuts|, i requires 0 <= i < |cuts| => cuts[i] + n)
  }

  /** A call on one target: `scrape_company`, given the URL and the answers
      still to come. */
  type Call = (string, seq<Fetched>) -> Outcome

  /** Batch `i` is what `call` returned for the `i`-th fetched target on the
      answers from cut `i` on, after using exactly the answers up to cut
      `i + 1`. */
  predicate BatchFollows(call: Call, p: Progress, answers: seq<Fetched>, i: nat)
    requires i < |p.batches| <= |p.fetched| && |p.cuts| == |p.batches| + 1
  {
    && p.cuts[i] <= |answers|
    && var o := call(p.fetched[i], answers[p.cuts[i]..]);
       o.Done? && o.records == p.batches[i] && p.cuts[i] + o.used == p.cuts[i + 1]
  }

  /** The answers are consumed in fetch order: the first target starts on
      the first answer, and each batch follows from its own share of them. */
  predicate Follows(call: Call, p: Progress, answers: seq<Fetched>)
  {
    && |p.batches| <= |p.fetched|
    && |p.cuts| == |p.batches| + 1 && p.cuts[0] == 0
    && forall i :: 0 <= i < |p.batches| ==> BatchFollows(call, p, answers, i)
  }

  /** A call that ends the run: `scrape_company` raised (caught by `except
      Exception`) or never returned (caught by `except KeyboardInterrupt`). */
  predicate EndsRun(o: Outcome, stop: StopReason)
  {
    (o.Failed? && stop == Crashed(o.error)) || (o.Interrupted? && stop == UserInterrupt)
  }

  /** Why the crawl stopped, read off the answers: a completed crawl used
      exactly the answers of its batches, and a crash or an interrupt is the
      call on the target after the last batch. */
  predicate StopFollows(call: Call, p: Progress, answers: seq<Fetched>)
    requires |p.cuts| == |p.batches| + 1
  {
    var k := |p.batches|;
    && (p.stop.Completed? ==> p.used == p.cuts[k])
    && (p.stop.Crashed? || p.stop.UserInterrupt? ==>
          k < |p.fetched| && p.cuts[k] <= |answers| && EndsRun(call(p.fetched[k], answers[p.cuts[k]..]), p.stop))
  }

  /** The crawl bookkeeping for `scrape_company` itself. */
  predicate FollowsAnswers(p: Progress, answers: seq<Fetched>)
  {
    Follows(ScrapeCompany, p, answers) && StopFollows(ScrapeCompany, p, answers)
  }

  /** A target that returned `records` after `n` answers, put in front of a
      crawl that went on from the answers after them, keeps the batches
      aligned with the answers and the reason for stopping. */
  lemma FollowsCons(call: Call, url: string, records: seq<Record>, n: nat, rest: Progress, answers: seq<Fetched>, p: Progress)
    requires n <= |answers| && call(url, answers) == Done(records, n)
    requires Follows(call, rest, answers[n..]) && StopFollows(call, rest, answers[n..])
    requires p.fetched == [url] + rest.fetched && p.batches == [records] + rest.batches
    requires p.stop == rest.stop && p.used == n + rest.used && p.cuts == [0] + Later(rest.cuts, n)
    ensures Follows(call, p, answers) && StopFollows(call, p, answers)
  {
    forall i | 0 <= i < |p.batches|
      ensures BatchFollows(call, p, answers, i)
    {
      if i == 0 {
        assert answers[0..] == answers;
      } else {
        FollowsTail(call, url, records, n, rest, answers, i - 1, p);
      }
    }
    var k := |rest.batches|;
    if rest.stop.Crashed? || rest.stop.UserInterrupt? {
      DropDrop(answers, n, rest.cuts[k]);
      assert p.fetched[k + 1] == rest.fetched[k];
    }
  }

  lemma FollowsTail(call: Call, url: string, records: seq<Record>, n: nat, rest: Progress, answers: seq<Fetched>, j: nat, p: Progress)
    requires n <= |answers|
    requires Follows(call, rest, answers[n..]) && j < |rest.batches|
    requires p.fetched == [url] + rest.fetched && p.batches == [records] + rest.batches && p.cuts == [0] + Later(rest.cuts, n)
    ensures BatchFollows(call, p, answers, j + 1)
  {
    assert BatchFollows(call, rest, answers[n..], j);
    DropDrop(answers, n, rest.cuts[j]);
    assert p.fetched[j + 1] == rest.fetched[j];
    assert p.batches[j + 1] == rest.batches[j];
    assert p.cuts[j + 1] == rest.cuts[j] + n;
    assert p.cuts[j + 2] == rest.cuts[j + 1] + n;
  }

  /** Every record of batch `i` carries the URL fetched `i`-th. */
  predicate Stamped(fetched: seq<string>, batches: seq<seq<Record>>)
    requires |batches| <= |fetched|
  {
    forall i, j :: 0 <= i < |batches| && 0 <= j < |batches[i]| ==> Cell(batches[i][j], Url) == Some(fetched[i])
  }

  /** A batch stamped with `url` in front keeps the stamping aligned. */
  lemma StampedCons(url: string, records: seq<Record>, fetched: seq<string>, batches: seq<seq<Record>>)
    requires |batches| <= |fetched| && Stamped(fetched, batches)
    requires forall j :: 0 <= j < |records| ==> Cell(records[j], Url) == Some(url)
    ensures Stamped([url] + fetched, [records] + batches)
  {
    var f := [url] + fetched;
    var b := [records] + batches;
    forall i, j | 0 <= i < |b| && 0 <= j < |b[i]|
      ensures Cell(b[i][j], Url) == Some(f[i])
    {
      if i > 0 {
        assert b[i] == batches[i - 1] && f[i] == fetched[i - 1];
      }
    }
  }

  /** Every record of every batch has every output column. */
  predicate BatchesComplete(batches: seq<seq<Record>>)
  {
    forall i, j :: 0 <= i < |batches| && 0 <= j < |batches[i]| ==> batches[i][j].Keys == ColumnSet
  }

  /** Every answer's records have exactly the extractor's fields. */
  predicate AllShaped(answers: seq<Fetched>)
  {
    forall i :: 0 <= i < |answers| ==> Shaped(answers[i])
  }

  /** The `for url in process` loop of `scrape_companies`, where the server's
      successive answers (across all targets) are `answers`. */
  function ScrapeLoop(urls: seq<string>, scraped: set<string>, answers: seq<Fetched>): (p: Progress)
    ensures p.used <= |answers|
    ensures !p.stop.OutOfRange?
    ensures forall k :: 0 <= k < |p.fetched| ==> p.fetched[k] !in scraped
    ensures IsPrefix(p.fetched, Unscraped(urls, scraped))
    ensures p.stop.Completed? ==> p.fetched == Unscraped(urls, scraped) && |p.batches| == |p.fetched|
    ensures !p.stop.Completed? ==> |p.batches| + 1 == |p.fetched|
    ensures Stamped(p.fetched, p.batches)
    decreases |urls|
  {
    if |urls| == 0 then Progress([], [], Completed, 0, [0])
    else if urls[0] in scraped then ScrapeLoop(urls[1..], scraped, answers)
    else
      match ScrapeCompany(urls[0], answers)
      case Interrupted => Progress([urls[0]], [], UserInterrupt, |answers|, [0])
      case Failed(e, n) => Progress([urls[0]], [], Crashed(e), n, [0])
      case Done(records, n) =>
        var rest := ScrapeLoop(urls[1..], scraped, answers[n..]);
        assert Unscraped(urls, scraped) == [urls[0]] + Unscraped(urls[1..], scraped);
        PrefixCons(urls[0], rest.fetched, Unscraped(urls[1..], scraped));
        StampedCons(urls[0], records, rest.fetched, rest.batches);
        Progress([urls[0]] + rest.fetched, [records] + rest.batches, rest.stop, n + rest.used, [0] + Later(rest.cuts, n))
  }

  /** With well-formed extractions, every record the loop collects has every output column. */
  lemma {:induction false} LoopBatchesComplete(urls: seq<string>, scraped: set<string>, answers: seq<Fetched>)
    requires AllShaped(answers)
    ensures BatchesComplete(ScrapeLoop(urls, scraped, answers).batches)
    decreases |urls|
  {
    if |urls| > 0 {
      if urls[0] in scraped {
        LoopBatchesComplete(urls[1..], scraped, answers);
      } else if ScrapeCompany(urls[0], answers).Done? {
        var o := ScrapeCompany(urls[0], answers);
        DoneRecordsShape(urls[0], answers);
        LoopBatchesComplete(urls[1..], scraped, answers[o.used..]);
      }
    }
  }

  /** Every target already in the checkpoint makes the loop a no-op that completes. */
  lemma {:induction false} NothingLeftCompletes(urls: seq<string>, scraped: set<string>, answers: seq<Fetched>)
    requires forall k :: 0 <= k < |urls| ==> urls[k] in scraped
    ensures ScrapeLoop(urls, scraped, answers) == Progress([], [], Completed, 0, [0])
  {
    if |urls| > 0 {
      NothingLeftCompletes(urls[1..], scraped, answers);
    }
  }

  /** What the crawl loop collects: batch `i` is the stamped records that
      `scrape_company` returned for the `i`-th target fetched, on its own
      share of the answers, and the loop stops early only because the call
      on the next target raised or never returned. */
  lemma {:induction false} LoopFollowsAnswers(urls: seq<string>, scraped: set<string>, answers: seq<Fetched>)
    ensures FollowsAnswers(ScrapeLoop(urls, scraped, answers), answers)
    decreases |urls|
  {
    if |urls| > 0 {
      if urls[0] in scraped {
        LoopFollowsAnswers(urls[1..], scraped, answers);
      } else if ScrapeCompany(urls[0], answers).Done? {
        var n := ScrapeCompany(urls[0], answers).used;
        LoopFollowsAnswers(urls[1..], scraped, answers[n..]);
        LoopFollowsDone(urls, scraped, answers);
      } else {
        assert answers[0..] == answers;
      }
    }
  }

  lemma LoopFollowsDone(urls: seq<string>, scraped: set<string>, answers: seq<Fetched>)
    requires |urls| > 0 && urls[0] !in scraped && ScrapeCompany(urls[0], answers).Done?
    requires FollowsAnswers(ScrapeLoop(urls[1..], scraped, answers[ScrapeCompany(urls[0], answers).used..]), answers[ScrapeCompany(urls[0], answers).used..])
    ensures FollowsAnswers(ScrapeLoop(urls, scraped, answers), answers)
  {
    var o := ScrapeCompany(urls[0], answers);
    var rest := ScrapeLoop(urls[1..], scraped, answers[o.used..]);
    var p := ScrapeLoop(urls, scraped, answers);
    assert p.fetched == [urls[0]] + rest.fetched && p.batches == [o.records] + rest.batches;
    assert p.stop == rest.stop && p.used == o.used + rest.used && p.cuts == [0] + Later(rest.cuts, o.used);
    FollowsCons(ScrapeCompany, urls[0], o.records, o.used, rest, answers, p);
  }

  /** What `scrape_companies` returns, with the bookkeeping of the crawl. */
  datatype Run = Run(results: seq<Record>, progress: Progress)

  /** Records read back from the checkpoint file, if there is one. */
  function Seed(prior: Option<Table>): (rs: seq<Record>)
    ensures prior.None? ==> rs == []
    ensures prior.Some? ==> |rs| == |prior.value|
    ensures forall i :: 0 <= i < |rs| ==> rs[i].Keys == ColumnSet
  {
    if prior.None? then [] else TableRecords(prior.value)
  }

  /** URLs already in the checkpoint file (`set()` when it is missing). */
  function Scraped(prior: Option<Table>): (done: set<string>)
    ensures prior.None? ==> done == {}
    ensures prior.Some? ==> forall u :: u in done <==> exists i :: 0 <= i < |prior.value| && prior.value[i][0] == Some(u)
  {
    if prior.None? then {} else CompletionIndex(prior.value)
  }

  /** A list of records all of which have every output column. */
  predicate Complete(rs: seq<Record>)
  {
    forall i :: 0 <= i < |rs| ==> rs[i].Keys == ColumnSet
  }

  lemma {:induction false} FlattenComplete(batches: seq<seq<Record>>)
    requires BatchesComplete(batches)
    ensures Complete(Flatten(batches))
  {
    if |batches| > 0 {
      FlattenComplete(batches[1..]);
      var rest := Flatten(batches[1..]);
      assert Flatten(batches) == batches[0] + rest;
      forall i | 0 <= i < |Flatten(batches)|
        ensures Flatten(batches)[i].Keys == ColumnSet
      {
        if i >= |batches[0]| {
          assert Flatten(batches)[i] == rest[i - |batches[0]|];
        } else {
          assert Flatten(batches)[i] == batches[0][i];
        }
      }
    }
  }

  /** Every new record carries the URL of a target that was fetched. */
  lemma {:induction false} FlattenStamped(fetched: seq<string>, batches: seq<seq<Record>>)
    requires |batches| <= |fetched|
    requires Stamped(fetched, batches)
    ensures forall k :: 0 <= k < |Flatten(batches)| ==>
              Cell(Flatten(batches)[k], Url).Some? && Cell(Flatten(batches)[k], Url).value in fetched
  {
    if |batches| > 0 {
      FlattenStamped(fetched[1..], batches[1..]);
      var rest := Flatten(batches[1..]);
      assert Flatten(batches) == batches[0] + rest;
      forall k | 0 <= k < |Flatten(batches)|
        ensures Cell(Flatten(batches)[k], Url).Some? && Cell(Flatten(batches)[k], Url).value in fetched
      {
        if k >= |batches[0]| {
          assert Flatten(batches)[k] == rest[k - |batches[0]|];
          assert Cell(rest[k - |batches[0]|], Url).value in fetched[1..];
        } else {
          assert Flatten(batches)[k] == batches[0][k];
          assert Cell(batches[0][k], Url) == Some(fetched[0]);
        }
      }
    }
  }

  /** `scrape_companies(size, offset)` with the checkpoint file `prior`
      (None when it does not exist), where the server answers the successive
      company fetches with `pages`. */
  function ScrapeCompanies(companies: seq<string>, offset: int, size: Option<int>,
                           prior: Option<Table>, pages: seq<DetailPage>): (run: Run)
    ensures |Seed(prior)| <= |run.results|
    ensures run.results[..|Seed(prior)|] == Seed(prior)
    ensures Complete(run.results)
    ensures forall k :: 0 <= k < |run.progress.fetched| ==> run.progress.fetched[k] !in Scraped(prior)
    ensures forall k :: |Seed(prior)| <= k < |run.results| ==>
              Cell(run.results[k], Url).Some? && Cell(run.results[k], Url).value in run.progress.fetched
    ensures run.progress.stop.Completed? ==> run.progress.fetched == Unscraped(Targets(companies, offset, size), Scraped(prior))
  {
    var answers := Fetches(pages);
    var p := ScrapeLoop(Targets(companies, offset, size), Scraped(prior), answers);
    FetchesShaped(pages);
    LoopBatchesComplete(Targets(companies, offset, size), Scraped(prior), answers);
    FlattenComplete(p.batches);
    FlattenStamped(p.fetched, p.batches);
    Run(Seed(prior) + Flatten(p.batches), p)
  }

  /** The results are the checkpoint's records followed by the new batches;
      the URLs fetched are the targets not in the checkpoint, in input order,
      up to where the run stopped; batch `i` is what `scrape_company` returned
      for the `i`-th URL fetched, on the server answers left after the
      earlier targets; and a run that did not complete stopped because the
      call on the URL after the last batch raised or never returned. */
  lemma ResultsInInputOrder(companies: seq<string>, offset: int, size: Option<int>,
                            prior: Option<Table>, pages: seq<DetailPage>)
    ensures var run := ScrapeCompanies(companies, offset, size, prior, pages);
            && run.results == Seed(prior) + Flatten(run.progress.batches)
            && IsPrefix(run.progress.fetched, Unscraped(Targets(companies, offset, size), Scraped(prior)))
            && |run.progress.batches| <= |run.progress.fetched|
            && Stamped(run.progress.fetched, run.progress.batches)
            && (run.progress.stop.Completed? <==> |run.progress.batches| == |run.progress.fetched|)
            && (!run.progress.stop.Completed? ==> |run.progress.batches| + 1 == |run.progress.fetched|)
    ensures FollowsAnswers(ScrapeCompanies(companies, offset, size, prior, pages).progress, Fetches(pages))
    ensures var run := ScrapeCompanies(companies, offset, size, prior, pages);
            run.progress.stop.Completed? ==> run.progress.fetched == Unscraped(Targets(companies, offset, size), Scraped(prior))
  {
    LoopFollowsAnswers(Targets(companies, offset, size), Scraped(prior), Fetches(pages));
  }

  /** `urls.iloc[i]`: negative positions count from the end; anything else
      out of range raises IndexError (None here). */
  function ILoc(urls: seq<string>, i: int): (r: Option<string>)
    ensures r.Some? <==> 0 <= i + |urls| && i < |urls|
    ensures 0 <= i < |urls| ==> r == Some(urls[i])
    ensures i < 0 <= i + |urls| ==> r == Some(urls[i + |urls|])
  {
    if 0 <= i < |urls| then Some(urls[i])
    else if i < 0 <= i + |urls| then Some(urls[i + |urls|])
    else None
  }

  /** The `while True` body of `scrape_process` from position `index` on,
      stopping once the position reaches `end` (checked only after a yield). */
  function ProcessFrom(urls: seq<string>, index: int, end: int, answers: seq<Fetched>): (p: Progress)
    ensures p.used <= |answers|
    ensures p.stop.Completed? ==> |p.batches| == |p.fetched| == (if end - index >= 1 then end - index else 1)
    ensures p.stop.OutOfRange? ==> |p.batches| == |p.fetched|
    ensures !p.stop.Completed? && !p.stop.OutOfRange? ==> |p.batches| + 1 == |p.fetched|
    ensures Stamped(p.fetched, p.batches)
    ensures |p.cuts| == |p.batches| + 1
    ensures |p.fetched| <= (if end - index >= 1 then end - index else 1)
    ensures |p.batches| == (if end - index >= 1 then end - index else 1) ==> p.stop.Completed?
    decreases |answers|
  {
    match ILoc(urls, index)
    case None => Progress([], [], OutOfRange, 0, [0])
    case Some(url) =>
      match ScrapeCompany(url, answers)
      case Interrupted => Progress([url], [], UserInterrupt, |answers|, [0])
      case Failed(e, n) => Progress([url], [], Crashed(e), n, [0])
      case Done(records, n) =>
        if index + 1 >= end then Progress([url], [records], Completed, n, [0, n])
        else
          var rest := ProcessFrom(urls, index + 1, end, answers[n..]);
          StampedCons(url, records, rest.fetched, rest.batches);
          Progress([url] + rest.fetched, [records] + rest.batches, rest.stop, n + rest.used, [0] + Later(rest.cuts, n))
  }

  /** `fetched` lists the URLs `iloc` reads at consecutive positions from `index`. */
  predicate VisitsFrom(urls: seq<string>, index: int, fetched: seq<string>)
  {
    forall k :: 0 <= k < |fetched| ==> ILoc(urls, index + k) == Some(fetched[k])
  }

  lemma VisitsFromCons(urls: seq<string>, index: int, url: string, fetched: seq<string>)
    requires ILoc(urls, index) == Some(url)
    requires VisitsFrom(urls, index + 1, fetched)
    ensures VisitsFrom(urls, index, [url] + fetched)
  {
    var f := [url] + fetched;
    forall k | 1 <= k < |f|
      ensures ILoc(urls, index + k) == Some(f[k])
    {
      var m := k - 1;
      assert ILoc(urls, index + 1 + m) == Some(fetched[m]);
      assert f[k] == fetched[m];
    }
  }

  /** The generator visits consecutive positions from `index`, as `iloc` reads them. */
  lemma {:induction false} ProcessVisitsInOrder(urls: seq<string>, index: int, end: int, answers: seq<Fetched>)
    ensures VisitsFrom(urls, index, ProcessFrom(urls, index, end, answers).fetched)
    decreases |answers|
  {
    if ILoc(urls, index).Some? {
      var url := ILoc(urls, index).value;
      var o := ScrapeCompany(url, answers);
      if o.Done? && index + 1 < end {
        var rest := ProcessFrom(urls, index + 1, end, answers[o.used..]);
        ProcessVisitsInOrder(urls, index + 1, end, answers[o.used..]);
        assert ProcessFrom(urls, index, end, answers).fetched == [url] + rest.fetched;
        VisitsFromCons(urls, index, url, rest.fetched);
      }
    }
  }

  /** What the generator yields: batch `i` is the stamped records that
      `scrape_company` returned for the URL at position `index + i`, on its
      own share of the answers, and it stops early on a crash or an
      interrupt only because the call on the next URL raised or never
      returned. */
  lemma {:induction false} ProcessFollowsAnswers(urls: seq<string>, index: int, end: int, answers: seq<Fetched>)
    ensures FollowsAnswers(ProcessFrom(urls, index, end, answers), answers)
    decreases |answers|
  {
    if ILoc(urls, index).Some? && ScrapeCompany(ILoc(urls, index).value, answers).Done? && index + 1 < end {
      var n := ScrapeCompany(ILoc(urls, index).value, answers).used;
      ProcessFollowsAnswers(urls, index + 1, end, answers[n..]);
      ProcessFollowsDone(urls, index, end, answers);
    } else {
      assert answers[0..] == answers;
    }
  }

  lemma ProcessFollowsDone(urls: seq<string>, index: int, end: int, answers: seq<Fetched>)
    requires ILoc(urls, index).Some? && index + 1 < end
    requires ScrapeCompany(ILoc(urls, index).value, answers).Done?
    requires FollowsAnswers(ProcessFrom(urls, index + 1, end, answers[ScrapeCompany(ILoc(urls, index).value, answers).used..]),
                            answers[ScrapeCompany(ILoc(urls, index).value, answers).used..])
    ensures FollowsAnswers(ProcessFrom(urls, index, end, answers), answers)
  {
    var url := ILoc(urls, index).value;
    var o := ScrapeCompany(url, answers);
    var rest := ProcessFrom(urls, index + 1, end, answers[o.used..]);
    var p := ProcessFrom(urls, index, end, answers);
    assert p.fetched == [url] + rest.fetched && p.batches == [o.records] + rest.batches;
    assert p.stop == rest.stop && p.used == o.used + rest.used && p.cuts == [0] + Later(rest.cuts, o.used);
    FollowsCons(ScrapeCompany, url, o.records, o.used, rest, answers, p);
  }

  /** A run from position `start` that ran out of URLs stopped at a
      position `iloc` cannot read, after using exactly the answers of its
      batches. */
  predicate RanOut(urls: seq<string>, start: int, p: Progress)
  {
    p.stop.OutOfRange? ==> ILoc(urls, start + |p.fetched|).None? && |p.cuts| == |p.batches| + 1 && p.used == p.cuts[|p.batches|]
  }

  /** The generator runs out of URLs only at a position `iloc` cannot read,
      after using exactly the answers of the batches it yielded. */
  lemma {:induction false} ProcessOutOfRange(urls: seq<string>, index: int, end: int, answers: seq<Fetched>)
    ensures RanOut(urls, index, ProcessFrom(urls, index, end, answers))
    decreases |answers|
  {
    if ILoc(urls, index).Some? && ScrapeCompany(ILoc(urls, index).value, answers).Done? && index + 1 < end {
      var n := ScrapeCompany(ILoc(urls, index).value, answers).used;
      ProcessOutOfRange(urls, index + 1, end, answers[n..]);
      ProcessOutOfRangeDone(urls, index, end, answers);
    }
  }

  lemma ProcessOutOfRangeDone(urls: seq<string>, index: int, end: int, answers: seq<Fetched>)
    requires ILoc(urls, index).Some? && index + 1 < end
    requires ScrapeCompany(ILoc(urls, index).value, answers).Done?
    requires RanOut(urls, index + 1, ProcessFrom(urls, index + 1, end, answers[ScrapeCompany(ILoc(urls, index).value, answers).used..]))
    ensures RanOut(urls, index, ProcessFrom(urls, index, end, answers))
  {
    var url := ILoc(urls, index).value;
    var o := ScrapeCompany(url, answers);
    var rest := ProcessFrom(urls, index + 1, end, answers[o.used..]);
    var p := ProcessFrom(urls, index, end, answers);
    assert p.fetched == [url] + rest.fetched && p.batches == [o.records] + rest.batches;
    assert p.stop == rest.stop && p.used == o.used + rest.used && p.cuts == [0] + Later(rest.cuts, o.used);
    OutOfRangeCons(urls, index, o.used, rest, p);
  }

  lemma OutOfRangeCons(urls: seq<string>, index: int, n: nat, rest: Progress, p: Progress)
    requires |rest.cuts| == |rest.batches| + 1 && |p.cuts| == |p.batches| + 1
    requires RanOut(urls, index + 1, rest)
    requires |p.fetched| == 1 + |rest.fetched| && |p.batches| == 1 + |rest.batches|
    requires p.stop == rest.stop && p.used == n + rest.used && p.cuts == [0] + Later(rest.cuts, n)
    ensures RanOut(urls, index, p)
  {
    if p.stop.OutOfRange? {
      assert index + |p.fetched| == index + 1 + |rest.fetched|;
      assert p.cuts[|p.batches|] == rest.cuts[|rest.batches|] + n;
    }
  }

  /** `scrape_process(urls, size, offset)`: it reads consecutive positions
      from `offset`, yields for each the records `scrape_company` returned on
      its share of the answers, and ends after `size` batches (at least
      one), on a crash, an interrupt, or a position `iloc` cannot read. */
  function ScrapeProcess(urls: seq<string>, size: int, offset: int, answers: seq<Fetched>): (p: Progress)
    ensures p.stop.Completed? ==> |p.batches| == (if size >= 1 then size else 1)
    ensures |p.fetched| <= (if size >= 1 then size else 1)
    ensures |p.batches| == (if size >= 1 then size else 1) ==> p.stop.Completed?
    ensures p.stop.Completed? || p.stop.OutOfRange? ==> |p.batches| == |p.fetched|
    ensures !p.stop.Completed? && !p.stop.OutOfRange? ==> |p.batches| + 1 == |p.fetched|
    ensures VisitsFrom(urls, offset, p.fetched)
    ensures FollowsAnswers(p, answers)
    ensures RanOut(urls, offset, p)
  {
    ProcessVisitsInOrder(urls, offset, offset + size, answers);
    ProcessFollowsAnswers(urls, offset, offset + size, answers);
    ProcessOutOfRange(urls, offset, offset + size, answers);
    ProcessFrom(urls, offset, offset + size, answers)
  }

  /** Inside the bounds of the list, `scrape_process` visits the same URLs and
      yields the same batches as the `scrape_companies` loop over that slice
      with an empty checkpoint. */
  lemma {:induction false} ProcessFromMatchesLoop(urls: seq<string>, index: int, end: int, answers: seq<Fetched>)
    requires 0 <= index < end <= |urls|
    ensures ProcessFrom(urls, index, end, answers) == ScrapeLoop(urls[index..end], {}, answers)
    decreases |answers|
  {
    var tail := urls[index..end][1..];
    assert tail == urls[index + 1..end];
    assert urls[index..end][0] == urls[index];
    assert ILoc(urls, index) == Some(urls[index]);
    match ScrapeCompany(urls[index], answers)
    case Interrupted =>
    case Failed(e, n) =>
    case Done(records, n) =>
      if index + 1 < end {
        ProcessFromMatchesLoop(urls, index + 1, end, answers[n..]);
      }
  }

  /** The loop is a do-while: a size of zero or less still scrapes the URL at `offset`. */
  lemma NonPositiveSizeScrapesOne(urls: seq<string>, size: int, offset: int, answers: seq<Fetched>)
    requires size <= 0 && ILoc(urls, offset).Some?
    requires ScrapeCompany(ILoc(urls, offset).value, answers).Done?
    ensures ScrapeProcess(urls, size, offset, answers).stop.Completed?
    ensures ScrapeProcess(urls, size, offset, answers).batches == [ScrapeCompany(ILoc(urls, offset).value, answers).records]
  {
  }
}

=== FILE: scrape.dfy ===
/** The per-target retry loop (`scrape_company`): fetch, extract, retry while
    the server answers with a placeholder page, then stamp the target URL. */
module Scrape {
  import opened Wrappers
  import opened Html
  import opened Records
  import opened Extract

  /** What one `fetch_company(url)` call returns: the page's records, or the
      exception `extract_data` raised. */
  type Fetched = Result<seq<Record>, ExtractError>

  /** `fetch_company` for the page the server answered with. */
  function FetchCompany(page: DetailPage): (f: Fetched)
    ensures page.heading.None? ==> f == Success([])
    ensures f.Success? ==> forall j :: 0 <= j < |f.value| ==> f.value[j].Keys == RecordFields
  {
    var f := ExtractData(page);
    if f.Success? then RecordShape(page); f else f
  }

  /** The answers to successive fetches, as `fetch_company` returns them. */
  function Fetches(pages: seq<DetailPage>): (fs: seq<Fetched>)
    ensures |fs| == |pages|
    ensures forall i :: 0 <= i < |fs| ==> fs[i] == FetchCompany(pages[i])
  {
    seq(|pages|, i requires 0 <= i < |pages| => FetchCompany(pages[i]))
  }

  /** Every record of a successful fetch has exactly the extractor's fields. */
  predicate Shaped(f: Fetched)
  {
    f.Success? ==> forall j :: 0 <= j < |f.value| ==> f.value[j].Keys == RecordFields
  }

  lemma FetchesShaped(pages: seq<DetailPage>)
    ensures forall i :: 0 <= i < |pages| ==> Shaped(Fetches(pages)[i])
  {
  }

  /** `data['URL'] = url` for every record: the URL is added and nothing else changes. */
  function Stamp(records: seq<Record>, url: string): (rs: seq<Record>)
    ensures |rs| == |records|
    ensures forall i :: 0 <= i < |rs| ==> rs[i].Keys == records[i].Keys + {Url}
    ensures forall i :: 0 <= i < |rs| ==> Cell(rs[i], Url) == Some(url)
    ensures forall i, f :: 0 <= i < |rs| && f != Url ==> Cell(rs[i], f) == Cell(records[i], f)
  {
    seq(|records|, i requires 0 <= i < |records| => records[i][Url := Some(url)])
  }

  /** What one pass of the `while True` body of `scrape_company` decides. */
  datatype Attempt =
    | Blocked                         // records came back but the first has no EIN: sleep and refetch
    | Accepted(records: seq<Record>)  // leave the loop with these records
    | Raised(error: ExtractError)     // `extract_data` raised

  /** One pass of the loop body on the answer `fetched`. */
  function Classify(fetched: Fetched): (a: Attempt)
    ensures a.Raised? <==> fetched.Failure?
    ensures a.Blocked? <==> fetched.Success? && |fetched.value| > 0 && Cell(fetched.value[0], Ein).None?
    ensures a.Accepted? ==> fetched == Success(a.records) && (|a.records| == 0 || Cell(a.records[0], Ein).Some?)
    ensures a.Raised? ==> fetched == Failure(a.error)
  {
    match fetched
    case Failure(e) => Raised(e)
    case Success(records) =>
      if |records| > 0 && Cell(records[0], Ein).None? then Blocked
      else Accepted(records)
  }

  /** How a retry loop ends, given the server's successive answers: with
      records after `used` fetches, with an exception after `used` fetches,
      or interrupted while the server kept answering with placeholders. */
  datatype Outcome =
    | Done(records: seq<Record>, used: nat)
    | Failed(error: ExtractError, used: nat)
    | Interrupted

  /** The `while True` loop of `scrape_company`: refetch while the answer is a
      placeholder, and leave with the first answer that is not. */
  function RetryLoop(answers: seq<Fetched>): (o: Outcome)
    ensures !o.Interrupted? ==> 1 <= o.used <= |answers|
    ensures !o.Interrupted? ==> forall i :: 0 <= i < o.used - 1 ==> Classify(answers[i]).Blocked?
    ensures o.Done? ==> Classify(answers[o.used - 1]) == Accepted(o.records)
    ensures o.Failed? ==> Classify(answers[o.used - 1]) == Raised(o.error)
    ensures o.Interrupted? <==> forall i :: 0 <= i < |answers| ==> Classify(answers[i]).Blocked?
  {
    if |answers| == 0 then Interrupted
    else match Classify(answers[0])
      case Accepted(records) => Done(records, 1)
      case Raised(e) => Failed(e, 1)
      case Blocked =>
        match RetryLoop(answers[1..])
        case Done(records, n) => Done(records, n + 1)
        case Failed(e, n) => Failed(e, n + 1)
        case Interrupted => Interrupted
  }

  /** `scrape_company(url)` where the i-th fetch of `url` returns `answers[i]`:
      the retry loop, then the URL stamped on every record it left with. */
  function ScrapeCompany(url: string, answers: seq<Fetched>): (o: Outcome)
    ensures !o.Interrupted? ==> 1 <= o.used <= |answers|
    ensures o.Done? ==> forall j :: 0 <= j < |o.records| ==> Cell(o.records[j], Url) == Some(url)
  {
    match RetryLoop(answers)
    case Done(records, n) => Done(Stamp(records, url), n)
    case Failed(e, n) => Failed(e, n)
    case Interrupted => Interrupted
  }

  /** What `scrape_company` returns: the records of the first answer that is
      not a placeholder, each stamped with the URL, every earlier answer having
      been a placeholder; the first returned record (if any) has an EIN. */
  lemma ScrapedRecords(url: string, answers: seq<Fetched>)
    requires ScrapeCompany(url, answers).Done?
    ensures var o := ScrapeCompany(url, answers);
            && (forall i :: 0 <= i < o.used - 1 ==> Classify(answers[i]).Blocked?)
            && answers[o.used - 1].Success?
            && o.records == Stamp(answers[o.used - 1].value, url)
            && (|o.records| == 0 || Cell(o.records[0], Ein).Some?)
  {
  }

  /** An exception from `extract_data` ends `scrape_company` with that
      exception, every earlier answer having been a placeholder. */
  lemma FailedRaises(url: string, answers: seq<Fetched>)
    requires ScrapeCompany(url, answers).Failed?
    ensures var o := ScrapeCompany(url, answers);
            && (forall i :: 0 <= i < o.used - 1 ==> Classify(answers[i]).Blocked?)
            && answers[o.used - 1] == Failure(o.error)
  {
  }

  /** Interrupted exactly when every answer was a placeholder. */
  lemma InterruptedIff(url: string, answers: seq<Fetched>)
    ensures ScrapeCompany(url, answers).Interrupted? <==> forall i :: 0 <= i < |answers| ==> Classify(answers[i]).Blocked?
  {
  }

  /** Every record `scrape_company` returns has every output column when the
      fetched records had the extractor's fields. */
  lemma DoneRecordsShape(url: string, answers: seq<Fetched>)
    requires forall i :: 0 <= i < |answers| ==> Shaped(answers[i])
    requires ScrapeCompany(url, answers).Done?
    ensures forall j :: 0 <= j < |ScrapeCompany(url, answers).records| ==>
              ScrapeCompany(url, answers).records[j].Keys == ColumnSet
  {
    ScrapedRecords(url, answers);
  }

  /** A page answered without a heading ends the retry loop with no records. */
  lemma NoHeadingEndsRetry(url: string, pages: seq<DetailPage>)
    requires |pages| > 0 && pages[0].heading.None?
    ensures ScrapeCompany(url, Fetches(pages)) == Done([], 1)
  {
    assert Fetches(pages)[0] == Success([]);
  }

  /** A placeholder answer costs one fetch and changes nothing else. */
  lemma BlockedRetriesSameUrl(url: string, f: Fetched, answers: seq<Fetched>)
    requires Classify(f).Blocked?
    ensures ScrapeCompany(url, [f] + answers) ==
              match ScrapeCompany(url, answers)
              case Done(records, n) => Done(records, n + 1)
              case Failed(e, n) => Failed(e, n + 1)
              case Interrupted => Interrupted
  {
    assert ([f] + answers)[1..] == answers;
  }
}

=== FILE: search.dfy ===
/** `fetch_companies`: walk the paginated search results, yielding the
    company links of each page, until a page has no "next" control. */
module Search {
  import opened Wrappers
  import opened Html

  /** The query `rq.get(URL, params=params)` sends for one fetch. */
  datatype Request = Request(page: nat, state: string, org: string)

  /** How the generator ends: after the last page, with the KeyError of a
      link without `href`, or still waiting for the server (the trace ran out). */
  datatype WalkStop = LastPage | MissingHref | Pending

  /** What the consumer has received, which queries were sent, and how it ended. */
  datatype Walk = Walk(yielded: seq<string>, requests: seq<Request>, stop: WalkStop)

  /** Every `td a` has an `href`. */
  predicate AllHrefs(links: seq<Option<string>>)
  {
    forall i :: 0 <= i < |links| ==> links[i].Some?
  }

  /** `[a['href'] for a in href]` when every link has one. */
  function Hrefs(links: seq<Option<string>>): (r: seq<string>)
    requires AllHrefs(links)
    ensures |r| == |links|
    ensures forall i :: 0 <= i < |r| ==> links[i] == Some(r[i])
  {
    seq(|links|, i requires 0 <= i < |links| => links[i].value)
  }

  /** A page after which the walk goes on: a placeholder without any `<a>`
      (retried), or a full page with a "next" control. */
  predicate Continues(p: SearchPage)
  {
    !p.hasAnchor || (AllHrefs(p.links) && p.hasNext)
  }

  /** Reference definition of the output: the links of the real pages, in order. */
  function Harvest(pages: seq<SearchPage>): seq<string>
  {
    if |pages| == 0 then []
    else (if pages[0].hasAnchor && AllHrefs(pages[0].links) then Hrefs(pages[0].links) else []) + Harvest(pages[1..])
  }

  /** How many answers fed the consumer: all of them but a page that raised. */
  function Served(w: Walk): nat
  {
    if w.stop.MissingHref? && |w.requests| > 0 then |w.requests| - 1 else |w.requests|
  }

  /** The `while True` loop from page number `page` on, where the i-th request
      is answered with `responses[i]`. */
  function WalkFrom(page: nat, state: string, org: string, responses: seq<SearchPage>): (w: Walk)
    ensures 1 <= |w.requests| <= |responses| || (w.requests == [] && responses == [])
    ensures w.stop.Pending? ==> |w.requests| == |responses|
    ensures !w.stop.Pending? ==> |w.requests| >= 1
    ensures forall i :: 0 <= i < |w.requests| ==> w.requests[i].state == state && w.requests[i].org == org
    decreases |responses|
  {
    if |responses| == 0 then Walk([], [], Pending)
    else
      var r := responses[0];
      var req := Request(page, state, org);
      if !r.hasAnchor then
        var rest := WalkFrom(page, state, org, responses[1..]);
        Walk(rest.yielded, [req] + rest.requests, rest.stop)
      else if !AllHrefs(r.links) then Walk([], [req], MissingHref)
      else if !r.hasNext then Walk(Hrefs(r.links), [req], LastPage)
      else
        var rest := WalkFrom(page + 1, state, org, responses[1..]);
        Walk(Hrefs(r.links) + rest.yielded, [req] + rest.requests, rest.stop)
  }

  /** The first request asks for `page`; the page number goes up by one after
      a real page and stays put after a placeholder. */
  lemma {:induction false} WalkPages(page: nat, state: string, org: string, responses: seq<SearchPage>)
    ensures var w := WalkFrom(page, state, org, responses);
            && (|w.requests| > 0 ==> w.requests[0].page == page)
            && (forall i :: 0 <= i < |w.requests| - 1 ==>
                  w.requests[i + 1].page == w.requests[i].page + (if responses[i].hasAnchor then 1 else 0))
    decreases |responses|
  {
    if |responses| > 0 {
      var r := responses[0];
      var w := WalkFrom(page, state, org, responses);
      if Continues(r) {
        var next := if r.hasAnchor then page + 1 else page;
        WalkPages(next, state, org, responses[1..]);
        var rest := WalkFrom(next, state, org, responses[1..]);
        assert w.requests == [Request(page, state, org)] + rest.requests;
        forall i | 0 <= i < |w.requests| - 1
          ensures w.requests[i + 1].page == w.requests[i].page + (if responses[i].hasAnchor then 1 else 0)
        {
          assert w.requests[i + 1] == rest.requests[i];
          if i > 0 {
            assert w.requests[i] == rest.requests[i - 1];
            assert responses[i] == responses[1..][i - 1];
          }
        }
      }
    }
  }

  /** Every page before the last one answered let the walk go on; when the
      server's answers ran out, all of them did. */
  lemma {:induction false} WalkContinues(page: nat, state: string, org: string, responses: seq<SearchPage>)
    ensures var w := WalkFrom(page, state, org, responses);
            && (forall i :: 0 <= i < |w.requests| - 1 ==> Continues(responses[i]))
            && (w.stop.Pending? ==> forall i :: 0 <= i < |responses| ==> Continues(responses[i]))
    decreases |responses|
  {
    if |responses| > 0 {
      var r := responses[0];
      var w := WalkFrom(page, state, org, responses);
      if Continues(r) {
        var next := if r.hasAnchor then page + 1 else page;
        WalkContinues(next, state, org, responses[1..]);
        var rest := WalkFrom(next, state, org, responses[1..]);
        assert |w.requests| == |rest.requests| + 1 && w.stop == rest.stop;
        forall i | 1 <= i < |responses|
          ensures responses[i] == responses[1..][i - 1]
        {
        }
      }
    }
  }

  /** The walk ends after the last page exactly on a complete page without a
      "next" control, and with KeyError exactly on a page with a link
      missing its `href`; in both cases that page was the last one asked for. */
  lemma {:induction false} WalkStops(page: nat, state: string, org: string, responses: seq<SearchPage>)
    ensures var w := WalkFrom(page, state, org, responses);
            && (w.stop.LastPage? ==> var last := responses[|w.requests| - 1];
                  last.hasAnchor && AllHrefs(last.links) && !last.hasNext)
            && (w.stop.MissingHref? ==> var last := responses[|w.requests| - 1];
                  last.hasAnchor && !AllHrefs(last.links))
    decreases |responses|
  {
    if |responses| > 0 {
      var r := responses[0];
      if Continues(r) {
        var next := if r.hasAnchor then page + 1 else page;
        WalkStops(next, state, org, responses[1..]);
        var rest := WalkFrom(next, state, org, responses[1..]);
        if !rest.stop.Pending? {
          assert responses[|rest.requests|] == responses[1..][|rest.requests| - 1];
        }
      }
    }
  }

  /** `fetch_companies(state, org)`: the first request asks for page 1. */
  function FetchCompanies(state: string, org: string, responses: seq<SearchPage>): (w: Walk)
    ensures |w.requests| > 0 ==> w.requests[0].page == 1
  {
    WalkPages(1, state, org, responses);
    WalkFrom(1, state, org, responses)
  }

  /** The links yielded are exactly the links of the real pages answered,
      the page that raised KeyError excluded. */
  lemma {:induction false} WalkYields(page: nat, state: string, org: string, responses: seq<SearchPage>)
    ensures Served(WalkFrom(page, state, org, responses)) <= |responses|
    ensures WalkFrom(page, state, org, responses).yielded == Harvest(responses[..Served(WalkFrom(page, state, org, responses))])
    decreases |responses|
  {
    if |responses| > 0 {
      var r := responses[0];
      var w := WalkFrom(page, state, org, responses);
      if Continues(r) {
        var next := if r.hasAnchor then page + 1 else page;
        WalkYields(next, state, org, responses[1..]);
        var rest := WalkFrom(next, state, org, responses[1..]);
        var m := Served(rest);
        assert w.requests == [Request(page, state, org)] + rest.requests;
        assert w.stop == rest.stop;
        assert Served(w) == m + 1;
        var served := responses[..m + 1];
        assert served[0] == r;
        assert served[1..] == responses[1..][..m];
        HarvestCons(served);
        assert rest.yielded == Harvest(served[1..]);
        if r.hasAnchor {
          assert w.yielded == Hrefs(r.links) + rest.yielded;
        } else {
          assert w.yielded == rest.yielded;
        }
      } else if r.hasAnchor && AllHrefs(r.links) {
        HarvestCons(responses[..1]);
        assert responses[..1][1..] == [];
      } else {
        assert Served(w) == 0;
      }
    }
  }

  lemma HarvestCons(pages: seq<SearchPage>)
    requires |pages| > 0
    ensures Harvest(pages) ==
              (if pages[0].hasAnchor && AllHrefs(pages[0].links) then Hrefs(pages[0].links) else []) + Harvest(pages[1..])
  {
  }

  /** A placeholder page is asked for again under the same page number, and
      it contributes no links. */
  lemma PlaceholderRetried(page: nat, state: string, org: string, p: SearchPage, responses: seq<SearchPage>)
    requires !p.hasAnchor
    ensures WalkFrom(page, state, org, [p] + responses).requests ==
              [Request(page, state, org)] + WalkFrom(page, state, org, responses).requests
    ensures WalkFrom(page, state, org, [p] + responses).yielded == WalkFrom(page, state, org, responses).yielded
  {
    assert ([p] + responses)[1..] == responses;
  }
}

=== FILE: seqs.dfy ===
/** Sequence helpers shared by the extractor, the crawl loops and the flush. */
module Seqs {
  /** Concatenation of a sequence of sequences. */
  function Flatten<T>(xss: seq<seq<T>>): seq<T>
  {
    if |xss| == 0 then [] else xss[0] + Flatten(xss[1..])
  }

  /** `a` is a prefix of `b`. */
  predicate IsPrefix<T(==)>(a: seq<T>, b: seq<T>)
  {
    |a| <= |b| && a == b[..|a|]
  }

  /** A common first element keeps a prefix a prefix. */
  lemma PrefixCons<T>(x: T, a: seq<T>, b: seq<T>)
    requires IsPrefix(a, b)
    ensures IsPrefix([x] + a, [x] + b)
  {
    assert ([x] + b)[..|a| + 1] == [x] + b[..|a|];
  }

  /** Dropping `n` elements, then `c` more, drops `n + c`. */
  lemma DropDrop<T>(xs: seq<T>, n: nat, c: nat)
    requires n + c <= |xs|
    ensures xs[n..][c..] == xs[n + c..]
  {
  }

  /** No element occurs twice. */
  predicate Distinct<T(==)>(xs: seq<T>)
  {
    forall i, j :: 0 <= i < j < |xs| ==> xs[i] != xs[j]
  }

  /** `drop_duplicates()`: the first occurrence of every element, in order. */
  function Dedup<T(==)>(xs: seq<T>): (r: seq<T>)
    ensures Distinct(r)
    ensures |r| <= |xs|
    decreases |xs|
  {
    if |xs| == 0 then []
    else
      var d := Dedup(xs[..|xs| - 1]);
      var last := xs[|xs| - 1];
      if last in d then d else d + [last]
  }

  /** Every element of the input survives deduplication. */
  lemma {:induction false} DedupKeeps<T>(xs: seq<T>, i: nat)
    requires i < |xs|
    ensures xs[i] in Dedup(xs)
    decreases |xs|
  {
    var init := xs[..|xs| - 1];
    if i < |xs| - 1 {
      assert xs[i] == init[i];
      DedupKeeps(init, i);
    }
  }

  /** Deduplication invents nothing: every element kept comes from the input. */
  lemma {:induction false} DedupFrom<T>(xs: seq<T>, k: nat)
    requires k < |Dedup(xs)|
    ensures Dedup(xs)[k] in xs
    decreases |xs|
  {
    var init := xs[..|xs| - 1];
    var d := Dedup(init);
    if k < |d| {
      DedupFrom(init, k);
      assert d[k] in init;
      var j :| 0 <= j < |init| && init[j] == d[k];
      assert xs[j] == d[k];
    } else {
      assert Dedup(xs)[k] == xs[|xs| - 1];
    }
  }

  /** A sequence without repeats is left as it is. */
  lemma {:induction false} DedupDistinct<T>(xs: seq<T>)
    requires Distinct(xs)
    ensures Dedup(xs) == xs
    decreases |xs|
  {
    if |xs| > 0 {
      var init := xs[..|xs| - 1];
      DedupDistinct(init);
      assert xs[|xs| - 1] !in init;
      assert init + [xs[|xs| - 1]] == xs;
    }
  }

  /** Dropping duplicates twice is dropping them once. */
  lemma DedupIdempotent<T>(xs: seq<T>)
    ensures Dedup(Dedup(xs)) == Dedup(xs)
  {
    DedupDistinct(Dedup(xs));
  }

  /** Appending rows never reorders or removes the rows kept so far: the
      deduplicated prefix is a prefix of the deduplicated whole. */
  lemma {:induction false} DedupPrefix<T>(a: seq<T>, b: seq<T>)
    ensures IsPrefix(Dedup(a), Dedup(a + b))
    decreases |b|
  {
    if |b| > 0 {
      var b' := b[..|b| - 1];
      DedupPrefix(a, b');
      assert (a + b)[..|a + b| - 1] == a + b';
    } else {
      assert a + b == a;
    }
  }
}

=== FILE: text.dfy ===
/** The Python string operations the extractor relies on: `str.strip()`,
    `str.rpartition(sep)[-1]`, regular-expression search for a literal label,
    `' | '.join(...)`, and BeautifulSoup's `get_text(strip=True)`. */
module Text {

  /** Python's `str.isspace()` for one character: exactly the characters
      that `str.strip()` with no argument removes. */
  predicate IsSpace(c: char)
  {
    || ('\t' <= c <= '\r')
    || ('\U{1C}' <= c <= '\U{1F}')
    || c == ' '
    || c == '\U{85}'
    || c == '\U{A0}'
    || c == '\U{1680}'
    || ('\U{2000}' <= c <= '\U{200A}')
    || c == '\U{2028}'
    || c == '\U{2029}'
    || c == '\U{202F}'
    || c == '\U{205F}'
    || c == '\U{3000}'
  }

  predicate AllSpace(s: string)
  {
    forall i :: 0 <= i < |s| ==> IsSpace(s[i])
  }

  /** No whitespace at either end: the shape of every `strip()` result. */
  predicate IsStripped(s: string)
  {
    |s| == 0 || (!IsSpace(s[0]) && !IsSpace(s[|s| - 1]))
  }

  /** `str.lstrip()`: the suffix left after dropping leading whitespace. */
  function TrimStart(s: string): (r: string)
    ensures |r| <= |s| && r == s[|s| - |r|..]
    ensures AllSpace(s[..|s| - |r|])
    ensures |r| == 0 || !IsSpace(r[0])
  {
    if |s| > 0 && IsSpace(s[0]) then
      var r := TrimStart(s[1..]);
      TrimStartStep(s, r);
      r
    else s
  }

  lemma TrimStartStep(s: string, r: string)
    requires |s| > 0 && IsSpace(s[0])
    requires |r| <= |s| - 1 && r == s[1..][|s| - 1 - |r|..]
    requires AllSpace(s[1..][..|s| - 1 - |r|])
    ensures r == s[|s| - |r|..]
    ensures AllSpace(s[..|s| - |r|])
  {
    var n := |s| - |r|;
    assert s[1..][n - 1..] == s[n..];
    forall k | 0 <= k < n
      ensures IsSpace(s[..n][k])
    {
      if k > 0 {
        assert s[..n][k] == s[1..][..n - 1][k - 1];
      }
    }
  }

  /** `str.rstrip()`: the prefix left after dropping trailing whitespace. */
  function TrimEnd(s: string): (r: string)
    ensures |r| <= |s| && r == s[..|r|]
    ensures AllSpace(s[|r|..])
    ensures |r| == 0 || !IsSpace(r[|r| - 1])
  {
    if |s| > 0 && IsSpace(s[|s| - 1]) then
      var r := TrimEnd(s[..|s| - 1]);
      TrimEndStep(s, r);
      r
    else s
  }

  lemma TrimEndStep(s: string, r: string)
    requires |s| > 0 && IsSpace(s[|s| - 1])
    requires |r| <= |s| - 1 && r == s[..|s| - 1][..|r|]
    requires AllSpace(s[..|s| - 1][|r|..])
    ensures r == s[..|r|]
    ensures AllSpace(s[|r|..])
  {
    var n := |r|;
    assert s[..|s| - 1][..n] == s[..n];
    forall k | 0 <= k < |s| - n
      ensures IsSpace(s[n..][k])
    {
      if k < |s| - 1 - n {
        assert s[n..][k] == s[..|s| - 1][n..][k];
      }
    }
  }

  /** How many whitespace characters `lstrip()` drops from the front of `s`. */
  function Lead(s: string): (n: nat)
    ensures n <= |s|
  {
    |s| - |TrimStart(s)|
  }

  /** Python's `str.strip()`: `s` is the whitespace `s[..Lead(s)]`, then the
      result, then whitespace. */
  function Strip(s: string): (r: string)
    ensures IsStripped(r)
    ensures Lead(s) + |r| <= |s| && r == s[Lead(s)..Lead(s) + |r|]
    ensures AllSpace(s[..Lead(s)]) && AllSpace(s[Lead(s) + |r|..])
  {
    var t := TrimStart(s);
    var r := TrimEnd(t);
    SliceOfSuffix(s, Lead(s), |r|);
    r
  }

  /** Slicing a suffix is slicing the original further along. */
  lemma SliceOfSuffix(s: string, i: nat, n: nat)
    requires i + n <= |s|
    ensures s[i..][..n] == s[i..i + n]
    ensures s[i..][n..] == s[i + n..]
  {
  }

  /** A character of a stripped string is a character of the original. */
  lemma StripSubset(s: string, c: char)
    requires c in Strip(s)
    ensures c in s
  {
    var r := Strip(s);
    var k :| 0 <= k < |r| && r[k] == c;
    assert s[Lead(s) + k] == r[k];
  }

  /** Stripping introduces no character. */
  lemma StripKeepsAbsent(s: string, c: char)
    requires c !in s
    ensures c !in Strip(s)
  {
    if c in Strip(s) {
      StripSubset(s, c);
    }
  }

  lemma {:induction false} TrimStartPadded(w: string, p: string)
    requires AllSpace(w)
    requires |p| == 0 || !IsSpace(p[0])
    ensures TrimStart(w + p) == p
  {
    if |w| > 0 {
      assert (w + p)[1..] == w[1..] + p;
      TrimStartPadded(w[1..], p);
    } else {
      assert w + p == p;
    }
  }

  lemma {:induction false} TrimEndPadded(p: string, w: string)
    requires AllSpace(w)
    requires |p| == 0 || !IsSpace(p[|p| - 1])
    ensures TrimEnd(p + w) == p
  {
    if |w| > 0 {
      assert (p + w)[..|p + w| - 1] == p + w[..|w| - 1];
      TrimEndPadded(p, w[..|w| - 1]);
    } else {
      assert p + w == p;
    }
  }

  /** Stripping removes exactly the surrounding whitespace and nothing of a stripped core. */
  lemma StripPadded(w1: string, p: string, w2: string)
    requires AllSpace(w1) && AllSpace(w2) && IsStripped(p)
    ensures Strip(w1 + p + w2) == p
  {
    if |p| == 0 {
      assert w1 + p + w2 == w1 + w2;
      TrimStartPadded(w1 + w2, "");
      assert w1 + w2 + "" == w1 + w2;
    } else {
      assert w1 + p + w2 == w1 + (p + w2);
      TrimStartPadded(w1, p + w2);
      TrimEndPadded(p, w2);
    }
  }

  /** `strip()` is idempotent. */
  lemma StripIdempotent(s: string)
    ensures Strip(Strip(s)) == Strip(s)
  {
    StripPadded("", Strip(s), "");
    assert "" + Strip(s) + "" == Strip(s);
  }

  /** A string strips to nothing exactly when it is all whitespace. */
  lemma StripEmptyIff(s: string)
    ensures Strip(s) == "" <==> AllSpace(s)
  {
    if AllSpace(s) {
      StripPadded(s, "", "");
      assert s + "" + "" == s;
    }
    if Strip(s) == "" {
      var t := TrimStart(s);
      assert t[0..] == t;
      assert |t| == 0;
      assert s[..Lead(s)] == s;
    }
  }

  /** `s.rpartition(c)[-1]`: what follows the last `c`, or all of `s` when
      `c` does not occur. The three ensures pin the result down uniquely. */
  function AfterLast(s: string, c: char): (r: string)
    ensures |r| <= |s| && r == s[|s| - |r|..]
    ensures c !in r
    ensures |r| < |s| ==> s[|s| - |r| - 1] == c
  {
    if |s| == 0 then []
    else if s[|s| - 1] == c then []
    else AfterLast(s[..|s| - 1], c) + [s[|s| - 1]]
  }

  lemma {:induction false} AfterLastNoSep(s: string, c: char)
    requires c !in s
    ensures AfterLast(s, c) == s
  {
  }

  /** The part after a separator that does not occur again is what `rpartition` keeps. */
  lemma {:induction false} AfterLastSplit(a: string, c: char, b: string)
    requires c !in b
    ensures AfterLast(a + [c] + b, c) == b
  {
    if |b| > 0 {
      var b' := b[..|b| - 1];
      assert b[|b| - 1] in b;
      assert c !in b' by {
        forall k | 0 <= k < |b'| ensures b'[k] != c {
          assert b'[k] == b[k];
        }
      }
      assert (a + [c] + b)[..|a + [c] + b| - 1] == a + [c] + b';
      AfterLastSplit(a, c, b');
      assert b' + [b[|b| - 1]] == b;
    }
  }

  /** `re.compile(sub).search(s)` for a pattern with no special characters. */
  predicate Contains(s: string, sub: string)
  {
    exists i :: 0 <= i <= |s| - |sub| && StartsWith(s[i..], sub)
  }

  /** `re.compile('^' + prefix).search(s)` for a prefix with no special characters. */
  predicate StartsWith(s: string, prefix: string)
  {
    |prefix| <= |s| && s[..|prefix|] == prefix
  }

  lemma StartsWithConcat(a: string, b: string)
    ensures StartsWith(a + b, a)
  {
    assert (a + b)[..|a|] == a;
  }

  /** `sep.join(parts)`. */
  function Join(parts: seq<string>, sep: string): string
  {
    if |parts| == 0 then ""
    else if |parts| == 1 then parts[0]
    else parts[0] + sep + Join(parts[1..], sep)
  }

  /** Joining one more part appends the separator and that part. */
  lemma {:induction false} JoinSnoc(parts: seq<string>, x: string, sep: string)
    requires |parts| > 0
    ensures Join(parts + [x], sep) == Join(parts, sep) + sep + x
    decreases |parts|
  {
    if |parts| == 1 {
      assert (parts + [x])[1..] == [x];
    } else {
      assert (parts + [x])[1..] == parts[1..] + [x];
      JoinSnoc(parts[1..], x, sep);
    }
  }

  /** `s.split(c)`: the maximal runs between occurrences of `c`. */
  function Split(s: string, c: char): (r: seq<string>)
    ensures |r| > 0
  {
    if |s| == 0 then [""]
    else if s[0] == c then [""] + Split(s[1..], c)
    else
      var t := Split(s[1..], c);
      [[s[0]] + t[0]] + t[1..]
  }

  lemma {:induction false} SplitNoSep(s: string, c: char)
    requires c !in s
    ensures Split(s, c) == [s]
  {
    if |s| > 0 {
      assert c !in s[1..] by {
        forall k | 0 <= k < |s| - 1 ensures s[1..][k] != c {
          assert s[1..][k] == s[k + 1];
        }
      }
      SplitNoSep(s[1..], c);
      assert [s[0]] + s[1..] == s;
    }
  }

  lemma {:induction false} SplitAt(a: string, c: char, b: string)
    requires c !in a
    ensures Split(a + [c] + b, c) == [a] + Split(b, c)
  {
    if |a| == 0 {
      assert (a + [c] + b)[1..] == b;
    } else {
      assert (a + [c] + b)[1..] == a[1..] + [c] + b;
      assert c !in a[1..] by {
        forall k | 0 <= k < |a| - 1 ensures a[1..][k] != c {
          assert a[1..][k] == a[k + 1];
        }
      }
      SplitAt(a[1..], c, b);
      assert [a[0]] + a[1..] == a;
    }
  }

  /** Each piece stripped, as a reader of a `' | '`-joined field would do. */
  function StripAll(parts: seq<string>): (r: seq<string>)
    ensures |r| == |parts|
    ensures forall i :: 0 <= i < |r| ==> r[i] == Strip(parts[i])
  {
    if |parts| == 0 then [] else [Strip(parts[0])] + StripAll(parts[1..])
  }

  lemma NoBarConcat(x: string, y: string)
    requires '|' !in x && '|' !in y
    ensures '|' !in x + y
  {
  }

  lemma SplitJoinOne(w: string, p: string)
    requires AllSpace(w) && '|' !in w
    requires '|' !in p && IsStripped(p)
    ensures StripAll(Split(w + p, '|')) == [p]
  {
    NoBarConcat(w, p);
    SplitNoSep(w + p, '|');
    StripPadded(w, p, "");
    assert w + p + "" == w + p;
  }

  lemma SplitJoinStep(w: string, p: string, rest: string)
    requires AllSpace(w) && '|' !in w
    requires '|' !in p && IsStripped(p)
    ensures StripAll(Split(w + (p + " | " + rest), '|')) == [p] + StripAll(Split(" " + rest, '|'))
  {
    assert w + (p + " | " + rest) == (w + p + " ") + ['|'] + (" " + rest);
    NoBarConcat(w, p);
    NoBarConcat(w + p, " ");
    SplitAt(w + p + " ", '|', " " + rest);
    StripPadded(w, p, " ");
    var xs := Split(" " + rest, '|');
    assert StripAll([w + p + " "] + xs) == [Strip(w + p + " ")] + StripAll(xs) by {
      assert ([w + p + " "] + xs)[1..] == xs;
    }
  }

  /** One more piece in front: the induction step of `SplitJoinFrom`. */
  lemma SplitJoinCons(w: string, p: string, tail: seq<string>)
    requires |tail| > 0
    requires AllSpace(w) && '|' !in w
    requires '|' !in p && IsStripped(p)
    requires StripAll(Split(" " + Join(tail, " | "), '|')) == tail
    ensures StripAll(Split(w + Join([p] + tail, " | "), '|')) == [p] + tail
  {
    var rest := Join(tail, " | ");
    assert ([p] + tail)[1..] == tail;
    assert Join([p] + tail, " | ") == p + " | " + rest;
    SplitJoinStep(w, p, rest);
  }

  lemma {:induction false} SplitJoinFrom(w: string, parts: seq<string>)
    requires |parts| > 0
    requires AllSpace(w) && '|' !in w
    requires forall i :: 0 <= i < |parts| ==> '|' !in parts[i] && IsStripped(parts[i])
    ensures StripAll(Split(w + Join(parts, " | "), '|')) == parts
    decreases |parts|
  {
    if |parts| == 1 {
      SplitJoinOne(w, parts[0]);
    } else {
      var p := parts[0];
      var tail := parts[1..];
      assert parts == [p] + tail;
      assert StripAll(Split(" " + Join(tail, " | "), '|')) == tail by {
        forall i | 0 <= i < |tail|
          ensures '|' !in tail[i] && IsStripped(tail[i])
        {
          assert tail[i] == parts[i + 1];
        }
        assert AllSpace(" ");
        SplitJoinFrom(" ", tail);
      }
      assert '|' !in p && IsStripped(p);
      SplitJoinCons(w, p, tail);
    }
  }

  /** Splitting a `' | '`-joined string on `|` and stripping recovers the
      pieces, when they are stripped and free of `|`. */
  lemma SplitJoin(parts: seq<string>)
    requires |parts| > 0
    requires forall i :: 0 <= i < |parts| ==> '|' !in parts[i] && IsStripped(parts[i])
    ensures StripAll(Split(Join(parts, " | "), '|')) == parts
  {
    SplitJoinFrom("", parts);
    assert "" + Join(parts, " | ") == Join(parts, " | ");
  }

  /** BeautifulSoup's `get_text(strip=True)`: every text node stripped, then concatenated. */
  function StrippedText(texts: seq<string>): (r: string)
    ensures IsStripped(r)
  {
    if |texts| == 0 then ""
    else
      var h := Strip(texts[0]);
      var t := StrippedText(texts[1..]);
      ConcatStripped(h, t);
      h + t
  }

  lemma ConcatStripped(h: string, t: string)
    requires IsStripped(h) && IsStripped(t)
    ensures IsStripped(h + t)
  {
    assert |h| > 0 ==> (h + t)[0] == h[0];
    assert |t| > 0 ==> (h + t)[|h + t| - 1] == t[|t| - 1];
  }

  /** A single text node reads as itself, stripped. */
  lemma StrippedTextSingle(s: string)
    ensures StrippedText([s]) == Strip(s)
  {
    assert [s][1..] == [];
  }

  /** The text of two runs of nodes is the text of the first, then the text
      of the second: nothing is inserted between nodes and nothing is lost. */
  lemma {:induction false} StrippedTextAppend(a: seq<string>, b: seq<string>)
    ensures StrippedText(a + b) == StrippedText(a) + StrippedText(b)
  {
    if |a| == 0 {
      assert a + b == b;
    } else {
      assert (a + b)[0] == a[0];
      assert (a + b)[1..] == a[1..] + b;
      StrippedTextAppend(a[1..], b);
    }
  }

  /** Whitespace-only nodes contribute nothing. */
  lemma {:induction false} StrippedTextBlank(texts: seq<string>)
    requires forall i :: 0 <= i < |texts| ==> AllSpace(texts[i])
    ensures StrippedText(texts) == ""
  {
    if |texts| > 0 {
      StripEmptyIff(texts[0]);
      StrippedTextBlank(texts[1..]);
    }
  }

  /** `get_text(strip=True)` introduces no character that no text node had. */
  lemma {:induction false} StrippedTextSubset(texts: seq<string>, c: char)
    requires forall i :: 0 <= i < |texts| ==> c !in texts[i]
    ensures c !in StrippedText(texts)
  {
    if |texts| > 0 {
      if c in Strip(texts[0]) {
        StripSubset(texts[0], c);
      }
      StrippedTextSubset(texts[1..], c);
    }
  }
}

=== FILE: wrappers.dfy ===
/** Optional values (Python's `None`) and success/failure results (a raised exception). */
module Wrappers {

  /** A value that may be absent: Python's `None` or a missing element. */
  datatype Option<+T> = None | Some(value: T)

  /** Either a value or the error the Python code would raise instead. */
  datatype Result<+R, +E> = Success(value: R) | Failure(error: E)
}
